=== FILE: README.md ===
# yagowebeval evaluation core in Dafny

This project models the core of the YAGO web evaluation tool. Users judge facts as
`@right`, `@wrong` or `@ignore`. The tool keeps choosing the next fact to show until the
Wilson score interval of every relation and every technique is narrow enough. The model covers:

- **Scheduler** (`scheduler.dfy`). This is `EvaluationManager.getRandomFactForEvaluation`. Its state is
  the current target kind, the target name and a quota of further facts from that target.
  - A call first draws from the current target while quota is left.
  - Otherwise it scans the unfinished relations and then the unfinished techniques, each in
    ascending order of progress. The first target that yields a fact becomes current with a quota of 10.
  - Failing that, it may hand out a fact for a second evaluation (switched off by a constant), or
    report that the evaluation is done.
  - Its helpers are `getRandomFact`, `getRemainingSubTargets` and `getProgressForEvaluationTarget`.
- **Records** (`model.dfy`). `Fact` and `EvaluationEntry` with `getValueForTarget`, `isCorrect` and
  `stripAngleBrackets`, and the result constants.
- **Wilson progress** (`wilson.dfy`). `Wilson.progress` as a function of the interval half-width.
- **Row transforms of `YagoDatabase`.** Each one is a function or method over a sequence of rows:
  - the store gate `shouldStoreFact`/`storeFactEvaluation` (`evaluation_log.dfy`);
  - the first-evaluation filter of `getEvaluationEntriesFromDB` (`evaluation_log.dfy`);
  - the per-target aggregation and string-keyed stable sort of `groupEntriesByEvaluationTarget`
    (`standings.dfy`);
  - the weighted interval choice and de-duplicated id draws of `randomFactsForRelation` and
    `randomFactsForTechnique` (`sampling.dfy`);
  - the pair counting and the kappa, agreement and double-evaluation progress formulas of
    `getAgreementAndKappa` and `getTwiceEvaluatedFactsTotalAndProgress` (`agreement.dfy`);
  - the relation filter of `getAllRelations` and the null-id synthesis of `getRelatedFactsForFact`
    (`fact_lookup.dfy`);
  - the escaper `getPostgresEscapedString` (`escaping.dfy`).

Supporting modules:

- `wrappers.dfy` holds `Option`.
- `sequences.dfy` has filtering, a stable insertion sort with its sortedness, stability and
  permutation lemmas, and distinctness.
- `strings.dfy` has Java's `String.compareTo` order as a total preorder, and `Integer.toString` with
  its inverse `Integer.parseInt`.
- `doubles.dfy` has IEEE-754 outcomes (finite, ±infinity, NaN) over exact reals.

Representation choices:

- The database and `java.util.Random` are inputs. Tables are sequences of rows. Random numbers are
  integer draws in their ranges.
- The scheduler's random fact draws are functions in a `Store`: the quota-path draw, the scan draw,
  the attached facts and the second-evaluation fact. Each returns `Option<Fact>`, and a Java `null`
  becomes `None`.
- Java `HashSet`/`HashMap` iteration order is unknown. The grouping takes the iteration order of its totals map as a parameter: any duplicate-free listing of the counted target values. The scheduler receives the relations and
  techniques as duplicate-free sequences in that unknown order. The model proves that the
  scan order depends on that order only among targets with equal progress.
- Doubles are exact reals wrapped in `Doubles.Double`. Rounding is not modelled. NaN and the
  infinities from divisions by zero are.

Behaviour kept as the code has it:

- Facts drawn by a scan do not get `evaluationTarget` set. Facts drawn by the quota path do.
- The second-evaluation branch can hand out a missing fact (`SecondEvaluation(None)`).
- `getAllRelations(true)` (and so the no-argument overload) is always empty.
- `stripAngleBrackets` removes any first and last character, not only `<` and `>`.
- The agreement query joins every evaluation row of a twice-evaluated fact, so an `@ignore` row of
  such a fact takes part in the pair counting and counts as "not right".
- When every paired verdict is the same, kappa is 0/0 = NaN, which the code turns into 0.0.

## Model

| member | source | states |
|---|---|---|
| Scheduler.Step | src/de/mpii/yago/web/evaluation/util/EvaluationManager.java:55-146 | One call keeps the state invariant: while quota is left there is a relation or technique target, and the quota stays within 0..10; a call that dispenses facts dispenses at least one |
| Scheduler.InitialIsValid | src/de/mpii/yago/web/evaluation/util/EvaluationManager.java:37-42 | The initial state (no target, quota 0) satisfies the invariant, so the quota path never switches on an unset target |
| Scheduler.QuotaPath | src/de/mpii/yago/web/evaluation/util/EvaluationManager.java:60-70 | With quota left and a fact from the current target, the call outputs that fact followed by its attached facts, keeps the target and uses up exactly one unit of quota |
| Scheduler.QuotaMissFallsThrough | src/de/mpii/yago/web/evaluation/util/EvaluationManager.java:60-77 | Without a quota hit the call is exactly the scan, and the quota is not decremented: it is refilled to 10 or left as it was |
| Scheduler.RelationsBeforeTechniques | src/de/mpii/yago/web/evaluation/util/EvaluationManager.java:87-101 | Over any relation and technique scan lists: when some listed relation yields a fact, the first such relation in list order becomes current with quota 10, and its unmarked draw heads the output |
| Scheduler.TechniquesAfterRelations | src/de/mpii/yago/web/evaluation/util/EvaluationManager.java:104-129 | Over any scan lists: techniques are consulted only when no listed relation yields; then the first yielding technique becomes current with quota 10 |
| Scheduler.FailedScanKeepsLastTried | src/de/mpii/yago/web/evaluation/util/EvaluationManager.java:87-130 | Over any scan lists: after scans that find nothing, the last technique tried (else the last relation tried, else the old target) is current and the quota is untouched |
| Scheduler.ScanTargets | src/de/mpii/yago/web/evaluation/util/EvaluationManager.java:87-145 | The scans keep the state invariant, dispense at least one fact when they dispense, and either refill the quota to 10 or leave it as it was |
| Scheduler.ScanDoneExactly | src/de/mpii/yago/web/evaluation/util/EvaluationManager.java:87-145 | Over any scan lists the scans report done if and only if no listed relation or technique yields and the kappa progress is not below 1.0 |
| Scheduler.DoneExactly | src/de/mpii/yago/web/evaluation/util/EvaluationManager.java:132-145 | A call reports done if and only if the quota path misses, no scanned relation or technique yields, and the kappa progress is not below 1.0 |
| Scheduler.GetRandomFactForEvaluation | src/de/mpii/yago/web/evaluation/util/EvaluationManager.java:25 | With kappa evaluation switched off (progress 2.0) no call ever asks for a second evaluation, and the state invariant is kept |
| Scheduler.SecondEvaluationWhenBehind | src/de/mpii/yago/web/evaluation/util/EvaluationManager.java:132-142 | With kappa evaluation on and nothing found, a second evaluation is requested exactly while the twice-evaluated facts are below a tenth of the other evaluations (or exceed all of them), and it carries the store's possibly missing fact |
| Scheduler.ScanPicksListed | src/de/mpii/yago/web/evaluation/util/EvaluationManager.java:87-130 | A target that the scans make current comes from the scan list of its kind: a relation from the relation list, a technique from the technique list |
| Scheduler.StepPicksUnfinished | src/de/mpii/yago/web/evaluation/util/EvaluationManager.java:80-130 | A target that a call makes current has progress below 1.0: it has no evaluations yet or its Wilson half-width is above 0.05 |
| Scheduler.GetRandomFact | src/de/mpii/yago/web/evaluation/util/EvaluationManager.java:148-172 | The quota draw yields a fact exactly for a relation or technique target whose draw yields one; that fact is the drawn one with `evaluationTarget` set to "relation" or "technique" and nothing else changed |
| Scheduler.TryTargets | src/de/mpii/yago/web/evaluation/util/EvaluationManager.java:87-102 | The scan loop returns the draw of the first yielding target and makes it current with quota 10; without one, the last name tried is current (the state is unchanged for an empty list) |
| Scheduler.FirstYielding | src/de/mpii/yago/web/evaluation/util/EvaluationManager.java:87-93 | Finds a position exactly when some target yields, and that position yields while every earlier one does not |
| Scheduler.GetRemainingSubTargets | src/de/mpii/yago/web/evaluation/util/EvaluationManager.java:174-194 | Exactly the targets with progress below 1.0, each once when the input has no duplicates, ascending by progress, with equal-progress targets in input order |
| Scheduler.RemainingStable | src/de/mpii/yago/web/evaluation/util/EvaluationManager.java:177-183 | For each progress value below 1.0 the targets with that value keep their iteration order (the sort is stable) |
| Scheduler.GetProgressForEvaluationTarget | src/de/mpii/yago/web/evaluation/util/EvaluationManager.java:196-220 | The keys are exactly the given targets; a target without entries has progress 0.0, any other has the Wilson progress of its evaluation and correct counts; rows for other targets are ignored |
| Scheduler.ParsedCountsAreCounts | src/de/mpii/yago/web/evaluation/util/EvaluationManager.java:210-211 | Reading the Evaluations and Correct texts of a grouped row back as integers gives the row's counts |
| Scheduler.ToDoMeansUnfinished | src/de/mpii/yago/web/evaluation/util/EvaluationManager.java:80-84 | A target is scanned exactly when it has no evaluations yet or its Wilson half-width is above 0.05 |
| Model.NewFact | src/de/mpii/yago/web/evaluation/model/Fact.java:42-48 | The constructor stores subject, relation, object and id verbatim and leaves technique and evaluation target unset |
| Model.Fact.WithEvaluationTarget | src/de/mpii/yago/web/evaluation/model/Fact.java:38-40 | Setting the evaluation target changes that field only |
| Model.GetValueForTarget | src/de/mpii/yago/web/evaluation/model/EvaluationEntry.java:87-95 | There is no value (null) exactly for target strings other than "relation" and "technique" |
| Model.ValueForKinds | src/de/mpii/yago/web/evaluation/model/EvaluationEntry.java:88-91 | "relation" gives the fact's relation and "technique" gives the entry's own technique |
| Model.CorrectOnlyWhenRight | src/de/mpii/yago/web/evaluation/model/EvaluationEntry.java:97-99 | An entry is correct exactly when its result is "@right"; "@wrong" and "@ignore" are not |
| Model.StripAngleBrackets | src/de/mpii/yago/web/evaluation/model/Fact.java:61-67 | Strings of length at most 2 come back unchanged; longer ones lose exactly two characters |
| Model.StripUnwraps | src/de/mpii/yago/web/evaluation/model/Fact.java:66 | Stripping undoes any one-character wrapping of a non-empty string, brackets or not |
| Model.StripKeepsEmptyBrackets | src/de/mpii/yago/web/evaluation/model/Fact.java:62-64 | "<>" comes back unchanged |
| Wilson.Progress | src/de/mpii/yago/web/evaluation/util/Wilson.java:18-27 | Progress is at most 1.0; it is 1.0 below the target width 0.05, and otherwise progress plus half-width equals 1.05 |
| Wilson.ProgressNonIncreasing | src/de/mpii/yago/web/evaluation/util/Wilson.java:22-25 | A wider interval never shows more progress |
| Wilson.ProgressBelowOne | src/de/mpii/yago/web/evaluation/util/Wilson.java:22-25 | Progress is below 1.0 exactly when the half-width exceeds 0.05 |
| Wilson.ProgressCanBeNegative | src/de/mpii/yago/web/evaluation/util/Wilson.java:24-25 | The score formula is not clamped at 0: a half-width above 1.05 would give negative progress. This holds for the abstract half-width only; for 0 <= correct <= total and total > 0 the half-widths that `Wilson.wilson` computes stay below 0.5, so the program never shows a negative progress |
| EvaluationLog.StoreFactEvaluation | src/de/mpii/yago/web/evaluation/util/YagoDatabase.java:746-791 | Exactly one row is appended when the user has not rated the fact, the fact has fewer than two rows and the fact lookup succeeds; otherwise the log is unchanged |
| EvaluationLog.StorePreservesQuota | src/de/mpii/yago/web/evaluation/util/YagoDatabase.java:793-820 | Storing keeps the invariant: at most two rows per fact and at most one per fact and user |
| EvaluationLog.ThirdStoreIsNoOp | src/de/mpii/yago/web/evaluation/util/YagoDatabase.java:807-814 | Two different users can rate a new fact, and any third attempt leaves the log unchanged |
| EvaluationLog.GetEvaluationEntries | src/de/mpii/yago/web/evaluation/util/YagoDatabase.java:151-186 | Returns the first qualifying row of every fact among the rows read before a database error (all rows when none occurs), in table order, and this is always a prefix of the full answer |
| EvaluationLog.ReadEntries | src/de/mpii/yago/web/evaluation/util/YagoDatabase.java:164-178 | The read loop with its seen-id set returns exactly the first qualifying row of every fact, in table order |
| EvaluationLog.PartialReadIsPrefix | src/de/mpii/yago/web/evaluation/util/YagoDatabase.java:164-182 | The entries collected before reading stops at any row are a prefix of the entries of the complete read |
| EvaluationLog.FirstEvaluationsOnePerFact | src/de/mpii/yago/web/evaluation/util/YagoDatabase.java:164-178 | The entries have pairwise distinct fact ids, every fact with a qualifying row is represented, and ignored ratings appear only when asked for |
| EvaluationLog.FirstRowsDistinct | src/de/mpii/yago/web/evaluation/util/YagoDatabase.java:172-177 | A kept row's fact id was not seen before; skipped (excluded) rows do not mark their fact as seen |
| Standings.GroupEntriesByEvaluationTarget | src/de/mpii/yago/web/evaluation/util/YagoDatabase.java:192-256 | Rows are built in the given iteration order of the totals map's keys, one per target value with matching entries. Each row carries that value's total (at least 1) and correct count, and the totals sum to the matching entries. The rows are then sorted stably by the chosen column's text, ascending or reversed, so ties keep the key order |
| Standings.GroupByTarget | src/de/mpii/yago/web/evaluation/util/YagoDatabase.java:188-190 | The two-argument overload: the same counts, with target names strictly ascending |
| Standings.AggregateCounts | src/de/mpii/yago/web/evaluation/util/YagoDatabase.java:198-217 | The counting pass finds a row for a value exactly when entries match it, with their total and correct counts |
| Standings.AggregateDistinct | src/de/mpii/yago/web/evaluation/util/YagoDatabase.java:219-241 | The counting pass yields at most one row per value and its totals sum to the number of matching entries |
| Standings.CorrectAtMostMatching | src/de/mpii/yago/web/evaluation/util/YagoDatabase.java:212-216 | A value never has more correct entries than entries |
| Standings.ComparatorIsTotalPreorder | src/de/mpii/yago/web/evaluation/util/YagoDatabase.java:243-253 | The row comparator, ascending or reversed, is a total preorder on strings |
| Strings.AscendingIsTotalPreorder | src/de/mpii/yago/web/evaluation/util/YagoDatabase.java:248 | `String.compareTo` order is total, transitive and antisymmetric |
| Strings.ParseNatToString | src/de/mpii/yago/web/evaluation/util/YagoDatabase.java:226-227 | Parsing the decimal text of a count gives the count back |
| Strings.NatToStringInjective | src/de/mpii/yago/web/evaluation/util/YagoDatabase.java:464 | Different counters print differently |
| Sequences.SortByStable | src/de/mpii/yago/web/evaluation/util/EvaluationManager.java:177 | The sort keeps the input order of elements with equal keys |
| Sequences.SortBySorted | src/de/mpii/yago/web/evaluation/util/EvaluationManager.java:177 | The sort orders by the comparator |
| Sampling.ChooseInterval | src/de/mpii/yago/web/evaluation/util/YagoDatabase.java:300-318 | A range is chosen exactly when the draw is below the total weight; the chosen range is non-empty and every earlier cumulative weight is at most the draw |
| Sampling.ChooseIntervalIsWeighted | src/de/mpii/yago/web/evaluation/util/YagoDatabase.java:306-316 | Range i is chosen exactly for the draws in its own slice of the cumulative weights |
| Sampling.RelationIdsFromWeightedRange | src/de/mpii/yago/web/evaluation/util/YagoDatabase.java:300-330 | A draw inside range i's slice of the cumulative weights selects range i, and the sampler then returns the de-duplicated ids drawn inside range i |
| Sampling.Dedup | src/de/mpii/yago/web/evaluation/util/YagoDatabase.java:320-330 | The ids are pairwise distinct, no more than the draws, and exactly the drawn ids |
| Sampling.SampleRelationIds | src/de/mpii/yago/web/evaluation/util/YagoDatabase.java:288-330 | Empty for no ranges; the walk overruns exactly when all ranges are empty. Otherwise the result is the de-duplicated ids of the drawn offsets inside the chosen range, with no retry: at most the requested number, distinct, all inside that range |
| Sampling.SampleTechniqueIds | src/de/mpii/yago/web/evaluation/util/YagoDatabase.java:385-408 | Empty without a row. Otherwise the result is the de-duplicated ids of the drawn offsets from the row's first id, with no retry: at most the requested number, distinct and inside the range; an empty range gives its first id |
| Agreement.CountAgreement | src/de/mpii/yago/web/evaluation/util/YagoDatabase.java:539-578 | The loop counts the pairs; the agreeing pairs are those with both right or both wrong; the right and wrong sums count two per pair, one each for a split; the (r²+w²−2)/2 term sums to the agreeing pairs |
| Agreement.AgreementTermOfPair | src/de/mpii/yago/web/evaluation/util/YagoDatabase.java:570 | For a pair of verdicts (right and wrong counts summing to 2) the term (r²+w²−2)/2 is 1 when both agree and 0 for a split |
| Agreement.AgreeingPairsBounded | src/de/mpii/yago/web/evaluation/util/YagoDatabase.java:571-573 | There are never more agreeing pairs than pairs |
| Agreement.Kappa | src/de/mpii/yago/web/evaluation/util/YagoDatabase.java:580-589 | Kappa is never NaN, and is 0.0 without any pair |
| Agreement.AgreementPercent | src/de/mpii/yago/web/evaluation/util/YagoDatabase.java:583-593 | The agreement is never NaN, and is 0.0 without pairs or agreement |
| Agreement.GetAgreementAndKappa | src/de/mpii/yago/web/evaluation/util/YagoDatabase.java:494-594 | The two results are the agreement percentage and Fleiss' kappa (for two raters, with pooled marginals) of the pair counts defined directly from the ratings (Agreement.CountsOf); both are finite, both are 0.0 without pairs, kappa is at most 1, and otherwise the percentage times the pairs is 100 times the agreeing pairs |
| Agreement.CountsOf | src/de/mpii/yago/web/evaluation/util/YagoDatabase.java:547-578 | The counts defined from the rating pairs are consistent: right and wrong marginals add up to twice the pairs, and agreeing pairs are at most the pairs |
| Agreement.KappaOverPairs | src/de/mpii/yago/web/evaluation/util/YagoDatabase.java:580-589 | Over any ratings: when every pair agrees and both verdicts occur, kappa is 1.0; when every pair is right-right (or every pair wrong-wrong), kappa is 0.0 |
| Agreement.KappaFiniteAtMostOne | src/de/mpii/yago/web/evaluation/util/YagoDatabase.java:580-582 | For counts of real pairs kappa is finite and at most 1 |
| Agreement.ExpectedOneMeansUnanimous | src/de/mpii/yago/web/evaluation/util/YagoDatabase.java:580 | The expected agreement is at most 1, and 1 only when every pair agrees |
| Agreement.AverageAtMostOne | src/de/mpii/yago/web/evaluation/util/YagoDatabase.java:581 | The observed agreement is at most 1, and 1 when every pair agrees |
| Agreement.SingleVerdictGivesZeroKappa | src/de/mpii/yago/web/evaluation/util/YagoDatabase.java:582-589 | When all paired verdicts are the same, every pair agrees yet kappa is 0.0 (0/0 turned into 0) |
| Agreement.ExpectedIsOne | src/de/mpii/yago/web/evaluation/util/YagoDatabase.java:580 | When only one verdict occurs among the paired rows the expected agreement is exactly 1.0 |
| Agreement.FullAgreementGivesKappaOne | src/de/mpii/yago/web/evaluation/util/YagoDatabase.java:580-582 | With both verdicts present and every pair agreeing, kappa is 1.0 |
| Agreement.CountTwiceEvaluated | src/de/mpii/yago/web/evaluation/util/YagoDatabase.java:608-619 | The loop counts exactly the pairs (same fact as the previous row, different user) |
| Agreement.TwiceEvaluatedProgress | src/de/mpii/yago/web/evaluation/util/YagoDatabase.java:627-629 | The progress is NaN exactly when there are no evaluations at all, otherwise finite and capped at 1.0; it is below 1.0 exactly while the pairs are under a tenth of the other evaluations or exceed all evaluations |
| Agreement.GetTwiceEvaluatedFactsTotalAndProgress | src/de/mpii/yago/web/evaluation/util/YagoDatabase.java:596-634 | Returns the pair count and the progress of that count |
| FactLookup.GetAllRelations | src/de/mpii/yago/web/evaluation/util/YagoDatabase.java:665-696 | With meta relations requested the set is empty; otherwise it holds exactly the relations of rows not excluded by technique or relation whose domain is not rdf:Statement |
| FactLookup.GetRelatedFactsForFact | src/de/mpii/yago/web/evaluation/util/YagoDatabase.java:450-475 | One fact per matching row, in order, with the fact's id as subject; a row without id gets the fact's id followed by a counter that counts only such rows, starting at 1 |
| FactLookup.SynthesizedIdsDistinct | src/de/mpii/yago/web/evaluation/util/YagoDatabase.java:460-466 | Two id-less rows never receive the same synthesized id |
| Escaping.EscapeIsCharacterwise | src/de/mpii/yago/web/evaluation/util/YagoDatabase.java:894-896 | The two replace passes equal doubling each quote and each backslash in one pass |
| Escaping.EscapedLength | src/de/mpii/yago/web/evaluation/util/YagoDatabase.java:894-896 | The output is longer by the number of quotes plus the number of backslashes |
| Escaping.UnescapeEscape | src/de/mpii/yago/web/evaluation/util/YagoDatabase.java:894-896 | Undoing the doubling gives the input back |
| Escaping.EscapeInjective | src/de/mpii/yago/web/evaluation/util/YagoDatabase.java:894-896 | Different inputs never escape to the same text |
| Doubles.ZeroIfNaN | src/de/mpii/yago/web/evaluation/util/YagoDatabase.java:584-589 | NaN becomes 0.0 and every other value is kept |
| Doubles.Div | src/de/mpii/yago/web/evaluation/util/YagoDatabase.java:583 | Division gives NaN exactly for 0/0, +∞ exactly for a positive dividend over 0, −∞ exactly for a negative one, and otherwise a finite value that times the divisor is the dividend |

## Left out

- Wilson's interval formula (square root over doubles) is a parameter `halfWidth(total, correct)`. The formatted Ratio, Wilson Center, Wilson Width and Progress columns of grouped rows are not modelled.
- Floating-point rounding: doubles are exact reals. This includes the constant 0.1 of the double-evaluation fraction, the kappa formula and the progress arithmetic.
- `java.util.Random` and the double-to-int conversions of the draws. Draws are integers in [0, total) and [0, count). This removes the chance of the Java weighted chooser running past the last range through rounding. The model keeps an overrun only when every range is empty (total weight 0).
- Scheduler.Step: database errors are not modelled in the scheduler. A failed query during the target scan throws out of `getRandomFactForEvaluation` after `currentTarget` and `currentEvaluationTarget` were already switched to the target being tried (src/de/mpii/yago/web/evaluation/util/EvaluationManager.java:87-129). The model's draws always answer, so that half-updated state is not represented.
- EvaluationLog.GetEvaluationEntries: the database error is a position in the rows (`failAt`), not a real exception. The logged warning is not modelled. Errors in the other database operations (inserts, fact and count lookups) are not modelled either: they are taken to succeed.
- SQL text, connections and result-set handling. Tables are row sequences, and exclusion lists are parameters. `getDomain` is a function parameter. The SQL `<>` filters on null techniques are not modelled.
- The database draws of the scheduler are `Store` functions. The SQL that picks an unevaluated fact for a set of ids, `getFactForSecondEvaluation` and the connection between the scheduler's draw and `randomFactsFor*` are not modelled.
- `synchronized` on the scheduler: the model is one sequential state.
- The per-user correct-probability maps of `getAgreementAndKappa` (YagoDatabase.java:501-534): computed and never used.
- `normalizeYagoEntities`, `normalizeIfNecessary`, `getUserEvaluationNumbers`, `getArg2`, `getDomain`, `getRange`, `isLiteral`, `isEconomicRelation` and the settings loaders: database updates and queries outside the scheduler's logic.
- `Fact.toHumanReadableEntity`, `cleanRDF`, `formatNumber`, `getHumanReadable` and the HTML escaping in `setTechnique`. They rely on foreign libraries (FactComponent, Char, StringEscapeUtils, NumberFormat). FactComponent is not part of this model.
- The pages, the servlet initialiser and EvaluationSetup, whose body is commented out.
- Java `int` overflow of counters and ids: integers are unbounded.
- Scheduler.GetProgressForEvaluationTarget: the scheduler asks for grouped rows sorted by the formatted Progress column. The model reads them in target order instead. The result map is the same, because each target has one row and every value comes from the Evaluations and Correct columns.
- Agreement.AgreementPercent: states "never NaN" rather than "finite", because the percentage is +∞ when agreeing pairs exist without pairs. Finiteness for real counts is stated by Agreement.GetAgreementAndKappa.
- `getAllTechniques` is the store's technique sequence, and the relations are the store's relation sequence. The model does not tie them to `getAllRelations(false)`.
- Model.StripAngleBrackets: strings are sequences of Unicode code points, while Java's `length` and `substring` count UTF-16 code units. Outside the Basic Multilingual Plane the lengths differ. For example, Java strips "<" plus one surrogate half from "<😀", leaving a lone surrogate; the model returns that two-character string unchanged.
- Strings.NotAfter: the order compares code points, while Java's `compareTo` compares UTF-16 code units. The two orders differ only for characters outside the Basic Multilingual Plane against characters from U+E000 up. For example, Java sorts "😀" before "｡" (U+FF61); the model sorts it after. The grouping sort and the two-argument standings inherit this.

=== FILE: agreement.dfy ===
/**
 * Inter-annotator statistics over facts evaluated twice. The database hands
 * over evaluation rows ordered by fact id; a row "closes a pair" when it is
 * about the same fact as the row before it and comes from a different user.
 * From the pairs the code derives the raw agreement, Fleiss' kappa and the
 * progress of the double evaluation.
 */
module Agreement {
  import opened Wrappers
  import Model
  import opened Doubles

  /** Who evaluated which fact; a null user name reads as "". */
  datatype Rater = Rater(factid: string, user: Option<string>)

  /** A rater together with the verdict they gave. */
  datatype Rating = Rating(rater: Rater, eval: string)

  function UserName(r: Rater): string {
    r.user.GetOr("")
  }

  /** Only "@right" counts as a correct verdict; every other value counts as wrong. */
  predicate Correct(r: Rating) {
    r.eval == Model.Right
  }

  /**
   * Row `i` closes a pair: the previous row (or the pair ("", "") before the
   * first row) has the same fact id and a different user name.
   */
  predicate ClosesPair(raters: seq<Rater>, i: nat)
    requires i < |raters|
  {
    var lastFactid := if i == 0 then "" else raters[i - 1].factid;
    var lastUser := if i == 0 then "" else UserName(raters[i - 1]);
    lastFactid == raters[i].factid && lastUser != UserName(raters[i])
  }

  function Raters(rows: seq<Rating>): (raters: seq<Rater>)
    ensures |raters| == |rows|
    ensures forall i :: 0 <= i < |rows| ==> raters[i] == rows[i].rater
  {
    seq(|rows|, i requires 0 <= i < |rows| => rows[i].rater)
  }

  /** The verdict of the row before row `i`; false before the first row. */
  predicate LastCorrect(rows: seq<Rating>, i: nat)
    requires i < |rows|
  {
    i > 0 && Correct(rows[i - 1])
  }

  /** Number of rows among the first `n` that close a pair. */
  function Pairs(raters: seq<Rater>, n: nat): (count: nat)
    requires n <= |raters|
    ensures count <= n
  {
    if n == 0 then 0
    else Pairs(raters, n - 1) + (if ClosesPair(raters, n - 1) then 1 else 0)
  }

  /** Number of pairs among the first `n` rows in which both verdicts are "@right". */
  function BothRight(rows: seq<Rating>, n: nat): nat
    requires n <= |rows|
  {
    if n == 0 then 0
    else BothRight(rows, n - 1)
         + (if ClosesPair(Raters(rows), n - 1) && Correct(rows[n - 1]) && LastCorrect(rows, n - 1)
            then 1 else 0)
  }

  /** Number of pairs among the first `n` rows in which neither verdict is "@right". */
  function BothWrong(rows: seq<Rating>, n: nat): nat
    requires n <= |rows|
  {
    if n == 0 then 0
    else BothWrong(rows, n - 1)
         + (if ClosesPair(Raters(rows), n - 1) && !Correct(rows[n - 1]) && !LastCorrect(rows, n - 1)
            then 1 else 0)
  }

  lemma {:induction false} AgreeingPairsBounded(rows: seq<Rating>, n: nat)
    requires n <= |rows|
    ensures BothRight(rows, n) + BothWrong(rows, n) <= Pairs(Raters(rows), n)
  {
    if n > 0 {
      AgreeingPairsBounded(rows, n - 1);
    }
  }

  /** The five counters of the pair loop. */
  datatype Counts = Counts(subjects: nat, agreement: nat, sumRight: nat, sumWrong: nat, sumAgreement: nat)

  /**
   * What the counters of any row sequence satisfy: each pair contributes two
   * verdicts, a disagreeing pair one of each kind, and the agreement sum
   * counts the agreeing pairs.
   */
  predicate Consistent(c: Counts) {
    && c.agreement <= c.subjects
    && c.sumAgreement == c.agreement
    && c.sumRight + c.sumWrong == 2 * c.subjects
    && c.sumRight >= c.subjects - c.agreement
    && c.sumWrong >= c.subjects - c.agreement
  }

  /** A pair's contribution `(r² + w² - 2) / 2` to the agreement sum, for its `r` right and `w` wrong verdicts. */
  function AgreementTerm(r: int, w: int): int {
    (r * r + w * w - 2) / 2
  }

  /** The contribution is 1 for an agreeing pair (2 right or 2 wrong) and 0 for a split one. */
  lemma AgreementTermOfPair(r: nat, w: nat)
    requires r + w == 2
    ensures AgreementTerm(r, w) == if r == 1 then 0 else 1
  {
    assert (r, w) in {(2, 0), (1, 1), (0, 2)};
  }

  /**
   * The pair loop of the kappa computation. Each pair adds its two verdicts
   * to `sumRight`/`sumWrong` and `(r² + w² - 2) / 2` to `sumAgreement`,
   * where `r` and `w` count its right and wrong verdicts.
   */
  method CountAgreement(rows: seq<Rating>)
    returns (totalSubjects: nat, totalAgreement: nat, sumRight: nat, sumWrong: nat, sumAgreement: nat)
    ensures totalSubjects == Pairs(Raters(rows), |rows|)
    ensures totalAgreement == BothRight(rows, |rows|) + BothWrong(rows, |rows|)
    ensures sumRight == 2 * BothRight(rows, |rows|) + (totalSubjects - totalAgreement)
    ensures sumWrong == 2 * BothWrong(rows, |rows|) + (totalSubjects - totalAgreement)
    ensures sumAgreement == totalAgreement
    ensures Consistent(Counts(totalSubjects, totalAgreement, sumRight, sumWrong, sumAgreement))
  {
    totalSubjects, totalAgreement, sumRight, sumWrong, sumAgreement := 0, 0, 0, 0, 0;
    var lastUser, lastFactid, lastCorrect := "", "", false;
    var i := 0;
    while i < |rows|
      invariant 0 <= i <= |rows|
      invariant i == 0 ==> lastUser == "" && lastFactid == "" && !lastCorrect
      invariant i > 0 ==> lastFactid == rows[i - 1].rater.factid && lastUser == UserName(rows[i - 1].rater)
                          && lastCorrect == Correct(rows[i - 1])
      invariant totalSubjects == Pairs(Raters(rows), i)
      invariant totalAgreement == BothRight(rows, i) + BothWrong(rows, i)
      invariant sumRight == 2 * BothRight(rows, i) + (totalSubjects - totalAgreement)
      invariant sumWrong == 2 * BothWrong(rows, i) + (totalSubjects - totalAgreement)
      invariant sumAgreement == totalAgreement
    {
      AgreeingPairsBounded(rows, i + 1);
      var factid := rows[i].rater.factid;
      var user := UserName(rows[i].rater);
      var correct := rows[i].eval == Model.Right;
      if lastFactid == factid && lastUser != user {
        totalSubjects := totalSubjects + 1;
        var r, w := 0, 0;
        if correct {
          sumRight, r := sumRight + 1, r + 1;
        } else {
          sumWrong, w := sumWrong + 1, w + 1;
        }
        if lastCorrect {
          sumRight, r := sumRight + 1, r + 1;
        } else {
          sumWrong, w := sumWrong + 1, w + 1;
        }
        AgreementTermOfPair(r, w);
        sumAgreement := sumAgreement + AgreementTerm(r, w);
        if lastCorrect == correct {
          totalAgreement := totalAgreement + 1;
        }
      }
      lastUser, lastFactid, lastCorrect := user, factid, correct;
      i := i + 1;
    }
    AgreeingPairsBounded(rows, |rows|);
  }

  /** The expected chance agreement: the squared shares of right and of wrong verdicts. */
  function Expected(c: Counts): Double {
    var pairsTimesTwo := Finite(c.subjects as real * 2.0);
    Plus(Square(Quotient(Finite(c.sumRight as real), pairsTimesTwo)),
         Square(Quotient(Finite(c.sumWrong as real), pairsTimesTwo)))
  }

  /** The observed agreement per pair. */
  function Average(c: Counts): Double {
    Div(c.sumAgreement as real, c.subjects as real)
  }

  /** Fleiss' kappa, `(average - expected) / (1 - expected)`, with NaN read as 0. */
  function Kappa(c: Counts): (k: Double)
    ensures !k.NaN?
    ensures c.subjects == 0 && c.sumRight == 0 && c.sumWrong == 0 ==> k == Finite(0.0)
  {
    ZeroIfNaN(Quotient(Minus(Average(c), Expected(c)), Minus(Finite(1.0), Expected(c))))
  }

  /** The share of agreeing pairs as a percentage, with NaN read as 0. */
  function AgreementPercent(c: Counts): (p: Double)
    ensures !p.NaN?
    ensures c.subjects == 0 && c.agreement == 0 ==> p == Finite(0.0)
  {
    Times(ZeroIfNaN(Div(c.agreement as real, c.subjects as real)), Finite(100.0))
  }

  /** With pairs, the percentage is 100 times the agreeing pairs over the pairs. */
  lemma AgreementPercentValue(c: Counts)
    requires c.subjects > 0
    ensures AgreementPercent(c).Finite?
    ensures AgreementPercent(c).value * c.subjects as real == 100.0 * c.agreement as real
  {
    var q := c.agreement as real / c.subjects as real;
    assert Div(c.agreement as real, c.subjects as real) == Finite(q);
    assert (q * 100.0) * c.subjects as real == 100.0 * (q * c.subjects as real);
  }

  /** Without pairs both statistics are 0. */
  lemma NoPairs(c: Counts)
    requires Consistent(c) && c.subjects == 0
    ensures AgreementPercent(c) == Finite(0.0) && Kappa(c) == Finite(0.0)
  {
    assert c.sumRight == 0 && c.sumWrong == 0 && c.agreement == 0;
  }

  lemma PercentOfPairs(rows: seq<Rating>, c: Counts, percent: Double)
    requires c.subjects == Pairs(Raters(rows), |rows|)
    requires c.agreement == BothRight(rows, |rows|) + BothWrong(rows, |rows|)
    requires percent == AgreementPercent(c)
    ensures c.subjects > 0 ==>
              percent.Finite? && percent.value * Pairs(Raters(rows), |rows|) as real
              == 100.0 * (BothRight(rows, |rows|) + BothWrong(rows, |rows|)) as real
  {
    if c.subjects > 0 {
      AgreementPercentValue(c);
    }
  }

  /**
   * The counters the pair loop should end with, from the pair counts: each
   * agreeing pair adds two verdicts of its kind and one to the agreement
   * sum, each split pair one verdict of each kind.
   */
  function CountsOf(rows: seq<Rating>): (c: Counts)
    ensures Consistent(c)
  {
    AgreeingPairsBounded(rows, |rows|);
    var pairs := Pairs(Raters(rows), |rows|);
    var agreeing := BothRight(rows, |rows|) + BothWrong(rows, |rows|);
    Counts(pairs, agreeing, 2 * BothRight(rows, |rows|) + (pairs - agreeing),
           2 * BothWrong(rows, |rows|) + (pairs - agreeing), agreeing)
  }

  /**
   * Kappa over the pairs of a row sequence: 1.0 when every pair agrees and
   * both verdicts occur, 0.0 when every pair gave the same single verdict.
   */
  lemma KappaOverPairs(rows: seq<Rating>)
    ensures var pairs, right, wrong := Pairs(Raters(rows), |rows|), BothRight(rows, |rows|), BothWrong(rows, |rows|);
            && (pairs > 0 && right + wrong == pairs && right > 0 && wrong > 0 ==> Kappa(CountsOf(rows)) == Finite(1.0))
            && (pairs > 0 && (right == pairs || wrong == pairs) ==> Kappa(CountsOf(rows)) == Finite(0.0))
  {
    var c := CountsOf(rows);
    var pairs, right, wrong := Pairs(Raters(rows), |rows|), BothRight(rows, |rows|), BothWrong(rows, |rows|);
    if pairs > 0 && right + wrong == pairs && right > 0 && wrong > 0 {
      FullAgreementGivesKappaOne(c);
    }
    if pairs > 0 && (right == pairs || wrong == pairs) {
      SingleVerdictGivesZeroKappa(c);
    }
  }

  /** The pair of results the kappa computation returns: agreement in percent, then kappa. */
  method GetAgreementAndKappa(rows: seq<Rating>) returns (agreementPercent: Double, kappa: Double)
    ensures agreementPercent == AgreementPercent(CountsOf(rows)) && kappa == Kappa(CountsOf(rows))
    ensures agreementPercent.Finite? && kappa.Finite?
    ensures Pairs(Raters(rows), |rows|) == 0 ==> agreementPercent == Finite(0.0) && kappa == Finite(0.0)
    ensures kappa.value <= 1.0
    ensures Pairs(Raters(rows), |rows|) > 0 ==>
              agreementPercent.value * Pairs(Raters(rows), |rows|) as real
              == 100.0 * (BothRight(rows, |rows|) + BothWrong(rows, |rows|)) as real
  {
    var subjects, agreement, sumRight, sumWrong, sumAgreement := CountAgreement(rows);
    var c := Counts(subjects, agreement, sumRight, sumWrong, sumAgreement);
    assert c == CountsOf(rows);
    KappaFiniteAtMostOne(c);
    if c.subjects == 0 {
      NoPairs(c);
    }
    agreementPercent, kappa := AgreementPercent(c), Kappa(c);
    PercentOfPairs(rows, c, agreementPercent);
  }

  lemma SharesSumToOne(r: real, w: real, t: real)
    requires t > 0.0 && r >= 0.0 && w >= 0.0 && r + w == t
    ensures 0.0 <= r / t <= 1.0
    ensures r / t + w / t == 1.0
  {
    assert (r / t) * t == r;
    assert (w / t) * t == w;
    assert (r / t + w / t) * t == (r / t) * t + (w / t) * t;
  }

  lemma QuotientAtMostOne(n: real, d: real)
    requires d > 0.0 && n <= d
    ensures n / d <= 1.0
  {
    assert (n / d) * d == n;
  }

  /** For shares x + y == 1, x² + y² is at most 1, and 1 only when one share is 0. */
  lemma SquaredShares(x: real, y: real)
    requires 0.0 <= x && 0.0 <= y && x + y == 1.0
    ensures x * x + y * y <= 1.0
    ensures x * x + y * y == 1.0 ==> x == 0.0 || y == 0.0
  {
    assert (x + y) * (x + y) == x * x + y * y + 2.0 * (x * y);
    assert x * x + y * y == 1.0 - 2.0 * (x * y);
    assert x * y >= 0.0;
    if x > 0.0 && y > 0.0 {
      assert x * y > 0.0;
      assert x * x + y * y < 1.0;
    }
  }

  /** The expected agreement is the sum of the squared shares of right and wrong verdicts. */
  lemma ExpectedShares(c: Counts)
    requires Consistent(c) && c.subjects > 0
    ensures var t := c.subjects as real * 2.0;
            var x := c.sumRight as real / t;
            var y := c.sumWrong as real / t;
            && 0.0 <= x && 0.0 <= y && x + y == 1.0
            && Expected(c) == Finite(x * x + y * y)
  {
    var t := c.subjects as real * 2.0;
    var r, w := c.sumRight as real, c.sumWrong as real;
    SharesSumToOne(r, w, t);
    SharesSumToOne(w, r, t);
    var x, y := r / t, w / t;
    assert Quotient(Finite(r), Finite(t)) == Finite(x);
    assert Quotient(Finite(w), Finite(t)) == Finite(y);
  }

  lemma SelfQuotient(n: real)
    requires n > 0.0
    ensures n / n == 1.0
  {
  }

  lemma ZeroQuotient(r: real, t: real)
    requires t > 0.0 && r / t == 0.0
    ensures r == 0.0
  {
    assert (r / t) * t == r;
  }

  /** The expected agreement is at most 1, and it is 1 only when every pair agrees. */
  lemma ExpectedOneMeansUnanimous(c: Counts)
    requires Consistent(c) && c.subjects > 0
    ensures Expected(c).Finite? && Expected(c).value <= 1.0
    ensures Expected(c).value == 1.0 ==> c.agreement == c.subjects
  {
    ExpectedShares(c);
    var t := c.subjects as real * 2.0;
    var x, y := c.sumRight as real / t, c.sumWrong as real / t;
    SquaredShares(x, y);
    if Expected(c).value == 1.0 {
      if x == 0.0 {
        ZeroQuotient(c.sumRight as real, t);
      } else {
        ZeroQuotient(c.sumWrong as real, t);
      }
    }
  }

  /** `(average - expected) / (1 - expected)` is finite and at most 1 when an expected value of 1 forces an average of 1. */
  lemma KappaFormula(average: real, expected: real)
    requires average <= 1.0 && expected <= 1.0
    requires expected == 1.0 ==> average == 1.0
    ensures var k := ZeroIfNaN(Quotient(Minus(Finite(average), Finite(expected)),
                                        Minus(Finite(1.0), Finite(expected))));
            k.Finite? && k.value <= 1.0
  {
    if expected < 1.0 {
      QuotientAtMostOne(average - expected, 1.0 - expected);
    }
  }

  /** The observed agreement per pair is at most 1, and exactly 1 when every pair agrees. */
  lemma AverageAtMostOne(c: Counts)
    requires Consistent(c) && c.subjects > 0
    ensures Average(c).Finite? && Average(c).value <= 1.0
    ensures c.agreement == c.subjects ==> Average(c).value == 1.0
  {
    var n := c.subjects as real;
    QuotientAtMostOne(c.sumAgreement as real, n);
    if c.agreement == c.subjects {
      assert c.sumAgreement as real == n;
      SelfQuotient(n);
    }
  }

  /**
   * Kappa is always a finite number at most 1: without pairs the NaN is read
   * as 0, and an expected agreement of 1 forces an average of 1, so the
   * division is 0/0 and not a non-zero value over zero.
   */
  lemma KappaFiniteAtMostOne(c: Counts)
    requires Consistent(c)
    ensures Kappa(c).Finite? && Kappa(c).value <= 1.0
  {
    if c.subjects > 0 {
      ExpectedOneMeansUnanimous(c);
      AverageAtMostOne(c);
      var a, e := Average(c).value, Expected(c).value;
      assert Average(c) == Finite(a) && Expected(c) == Finite(e);
      KappaFormula(a, e);
    } else {
      NoPairs(c);
    }
  }

  /**
   * When every verdict is "@right" (or every one is wrong) the expected
   * agreement is 1, the kappa quotient is 0/0, and kappa is reported as 0
   * although the raters never disagreed.
   */
  lemma SingleVerdictGivesZeroKappa(c: Counts)
    requires Consistent(c) && c.subjects > 0
    requires c.sumRight == 0 || c.sumWrong == 0
    ensures c.agreement == c.subjects
    ensures Kappa(c) == Finite(0.0)
  {
    assert c.agreement == c.subjects;
    AverageAtMostOne(c);
    ExpectedIsOne(c);
    KappaOfCertainty(Average(c), Expected(c));
  }

  /** An average and an expected agreement of 1 make the kappa quotient 0/0, reported as 0. */
  lemma KappaOfCertainty(average: Double, expected: Double)
    requires average == Finite(1.0) && expected == Finite(1.0)
    ensures ZeroIfNaN(Quotient(Minus(average, expected), Minus(Finite(1.0), expected))) == Finite(0.0)
  {
    assert Quotient(Finite(0.0), Finite(0.0)) == Div(0.0, 0.0);
  }

  /** With only one kind of verdict, the expected agreement is exactly 1. */
  lemma ExpectedIsOne(c: Counts)
    requires Consistent(c) && c.subjects > 0
    requires c.sumRight == 0 || c.sumWrong == 0
    ensures Expected(c) == Finite(1.0)
  {
    ExpectedShares(c);
    var t := c.subjects as real * 2.0;
    var x, y := c.sumRight as real / t, c.sumWrong as real / t;
    UnitShares(x, y);
  }

  lemma UnitShares(x: real, y: real)
    requires x + y == 1.0 && (x == 0.0 || y == 0.0)
    ensures x * x + y * y == 1.0
  {
    if x == 0.0 {
      assert y == 1.0;
    } else {
      assert x == 1.0;
    }
  }

  /** With both verdicts present and no disagreeing pair, kappa is exactly 1. */
  lemma FullAgreementGivesKappaOne(c: Counts)
    requires Consistent(c) && c.subjects > 0
    requires c.sumRight > 0 && c.sumWrong > 0 && c.agreement == c.subjects
    ensures Kappa(c) == Finite(1.0)
  {
    ExpectedShares(c);
    AverageAtMostOne(c);
    var t := c.subjects as real * 2.0;
    var x, y := c.sumRight as real / t, c.sumWrong as real / t;
    assert x > 0.0 && y > 0.0 by {
      assert x * t == c.sumRight as real;
      assert y * t == c.sumWrong as real;
    }
    SquaredShares(x, y);
    var e := x * x + y * y;
    assert e < 1.0;
    assert Average(c) == Finite(1.0);
    assert Minus(Average(c), Expected(c)) == Finite(1.0 - e);
    assert (1.0 - e) / (1.0 - e) == 1.0;
  }

  /** The pair loop of the double-evaluation progress: only the number of pairs is kept. */
  method CountTwiceEvaluated(raters: seq<Rater>) returns (totalDoubleFacts: nat)
    ensures totalDoubleFacts == Pairs(raters, |raters|)
  {
    totalDoubleFacts := 0;
    var lastUser, lastFactid := "", "";
    var i := 0;
    while i < |raters|
      invariant 0 <= i <= |raters|
      invariant i == 0 ==> lastUser == "" && lastFactid == ""
      invariant i > 0 ==> lastFactid == raters[i - 1].factid && lastUser == UserName(raters[i - 1])
      invariant totalDoubleFacts == Pairs(raters, i)
    {
      var factid := raters[i].factid;
      var user := UserName(raters[i]);
      if lastFactid == factid && lastUser != user {
        totalDoubleFacts := totalDoubleFacts + 1;
      }
      lastUser, lastFactid := user, factid;
      i := i + 1;
    }
  }

  /** The share of facts that should be evaluated twice. */
  const DoubleEvaluationFraction: real := 0.1

  /**
   * Progress of the double evaluation: twice-evaluated facts over the other
   * evaluations, relative to the target fraction, capped at 1.0 (NaN is not
   * capped).
   */
  function TwiceEvaluatedProgress(totalDoubleFacts: nat, totalFacts: int): (p: Double)
    ensures p.NaN? <==> totalDoubleFacts == 0 && totalFacts == 0
    ensures !p.NaN? ==> p.Finite? && p.value <= 1.0
    ensures LessThan(p, 1.0) <==> totalFacts < totalDoubleFacts
                                  || (totalFacts > totalDoubleFacts && 11 * totalDoubleFacts < totalFacts)
  {
    FractionBelowTarget(totalDoubleFacts as real, totalFacts as real - totalDoubleFacts as real);
    var fractionDone := Div(totalDoubleFacts as real, totalFacts as real - totalDoubleFacts as real);
    var progress := DivBy(fractionDone, DoubleEvaluationFraction);
    if GreaterThan(progress, 1.0) then Finite(1.0) else progress
  }

  /** Relative to the fraction 0.1, a quotient `d / m` is below 1 exactly when `m` is negative or exceeds `10 d`. */
  lemma FractionBelowTarget(d: real, m: real)
    requires d >= 0.0
    ensures m != 0.0 ==> ((d / m) / DoubleEvaluationFraction < 1.0 <==> m < 0.0 || 10.0 * d < m)
  {
    if m != 0.0 {
      var q := d / m;
      assert q * m == d;
      assert q / DoubleEvaluationFraction == 10.0 * q;
      if m > 0.0 {
        assert 10.0 * q < 1.0 <==> 10.0 * q * m < m;
      } else {
        assert q <= 0.0;
      }
    }
  }

  /** The result pair of the double-evaluation statistics: the number of pairs and the progress. */
  method GetTwiceEvaluatedFactsTotalAndProgress(raters: seq<Rater>, totalFacts: int)
    returns (totalDoubleFacts: nat, progress: Double)
    ensures totalDoubleFacts == Pairs(raters, |raters|)
    ensures progress == TwiceEvaluatedProgress(totalDoubleFacts, totalFacts)
  {
    totalDoubleFacts := CountTwiceEvaluated(raters);
    progress := TwiceEvaluatedProgress(totalDoubleFacts, totalFacts);
  }
}

=== FILE: doubles.dfy ===
/**
 * Java `double` arithmetic over exact reals: finite values, the two
 * infinities and NaN, with the IEEE 754 rules for how the special values
 * propagate. Rounding and signed zeros are not modelled.
 */
module Doubles {

  datatype Double = Finite(value: real) | PositiveInfinity | NegativeInfinity | NaN

  /** `a / b` on doubles. */
  function Div(a: real, b: real): (r: Double)
    ensures r.NaN? <==> a == 0.0 && b == 0.0
    ensures r.Finite? <==> b != 0.0
    ensures r.Finite? ==> r.value * b == a
    ensures r.PositiveInfinity? <==> b == 0.0 && a > 0.0
    ensures r.NegativeInfinity? <==> b == 0.0 && a < 0.0
  {
    if b != 0.0 then Finite(a / b)
    else if a > 0.0 then PositiveInfinity
    else if a < 0.0 then NegativeInfinity
    else NaN
  }

  /** `x / c` on doubles for a positive constant `c`. */
  function DivBy(x: Double, c: real): (r: Double)
    requires c > 0.0
    ensures r.Finite? <==> x.Finite?
    ensures r.Finite? ==> r.value * c == x.value
    ensures !r.Finite? ==> r == x
  {
    match x
    case Finite(v) => Finite(v / c)
    case _ => x
  }

  /** `x < c`; false when `x` is NaN. */
  predicate LessThan(x: Double, c: real) {
    match x
    case Finite(v) => v < c
    case NegativeInfinity => true
    case _ => false
  }

  /** `x > c`; false when `x` is NaN. */
  predicate GreaterThan(x: Double, c: real) {
    match x
    case Finite(v) => v > c
    case PositiveInfinity => true
    case _ => false
  }

  /** `Double.isNaN(x) ? 0.0 : x` as the statistics code writes it. */
  function ZeroIfNaN(x: Double): (r: Double)
    ensures !r.NaN?
    ensures x.NaN? ==> r == Finite(0.0)
    ensures !x.NaN? ==> r == x
  {
    if x.NaN? then Finite(0.0) else x
  }

  function Negate(x: Double): (r: Double)
    ensures r.Finite? <==> x.Finite?
    ensures r.NaN? <==> x.NaN?
    ensures r.Finite? ==> r.value == -x.value
  {
    match x
    case Finite(v) => Finite(-v)
    case PositiveInfinity => NegativeInfinity
    case NegativeInfinity => PositiveInfinity
    case NaN => NaN
  }

  /** `a + b`: NaN when either operand is NaN or the infinities have opposite signs. */
  function Plus(a: Double, b: Double): (r: Double)
    ensures r.Finite? <==> a.Finite? && b.Finite?
    ensures r.Finite? ==> r.value == a.value + b.value
    ensures r.NaN? <==> a.NaN? || b.NaN? || (a.PositiveInfinity? && b.NegativeInfinity?)
                        || (a.NegativeInfinity? && b.PositiveInfinity?)
  {
    match (a, b)
    case (NaN, _) => NaN
    case (_, NaN) => NaN
    case (Finite(x), Finite(y)) => Finite(x + y)
    case (PositiveInfinity, NegativeInfinity) => NaN
    case (NegativeInfinity, PositiveInfinity) => NaN
    case (PositiveInfinity, _) => PositiveInfinity
    case (NegativeInfinity, _) => NegativeInfinity
    case (_, PositiveInfinity) => PositiveInfinity
    case (_, NegativeInfinity) => NegativeInfinity
  }

  /** `a - b`. */
  function Minus(a: Double, b: Double): (r: Double)
    ensures r.Finite? <==> a.Finite? && b.Finite?
    ensures r.Finite? ==> r.value == a.value - b.value
    ensures a.NaN? || b.NaN? ==> r.NaN?
  {
    Plus(a, Negate(b))
  }

  /** `a * b`: NaN when either operand is NaN or a zero meets an infinity. */
  function Times(a: Double, b: Double): (r: Double)
    ensures r.Finite? <==> a.Finite? && b.Finite?
    ensures r.Finite? ==> r.value == a.value * b.value
    ensures a.NaN? || b.NaN? ==> r.NaN?
  {
    match (a, b)
    case (NaN, _) => NaN
    case (_, NaN) => NaN
    case (Finite(x), Finite(y)) => Finite(x * y)
    case (Finite(x), _) => if x == 0.0 then NaN else if (x > 0.0) == b.PositiveInfinity? then PositiveInfinity else NegativeInfinity
    case (_, Finite(y)) => if y == 0.0 then NaN else if (y > 0.0) == a.PositiveInfinity? then PositiveInfinity else NegativeInfinity
    case _ => if a == b then PositiveInfinity else NegativeInfinity
  }

  /** `Math.pow(x, 2)`. */
  function Square(x: Double): (r: Double)
    ensures r.Finite? <==> x.Finite?
    ensures r.Finite? ==> r.value == x.value * x.value && r.value >= 0.0
    ensures r.NaN? <==> x.NaN?
  {
    Times(x, x)
  }

  /** `a / b` for arbitrary doubles: NaN for 0/0, infinity/infinity or a NaN operand. */
  function Quotient(a: Double, b: Double): (r: Double)
    ensures a.Finite? && b.Finite? ==> r == Div(a.value, b.value)
    ensures a.NaN? || b.NaN? ==> r.NaN?
  {
    match (a, b)
    case (NaN, _) => NaN
    case (_, NaN) => NaN
    case (Finite(x), Finite(y)) => Div(x, y)
    case (Finite(_), _) => Finite(0.0)
    case (_, Finite(y)) => if (y >= 0.0) == a.PositiveInfinity? then PositiveInfinity else NegativeInfinity
    case _ => NaN
  }
}

=== FILE: escaping.dfy ===
/**
 * Quoting of strings for PostgreSQL string literals: every single quote is
 * doubled, then every backslash is doubled. The two replacement passes
 * amount to one character-by-character escape, which a reader that undoes
 * the doubling inverts.
 */
module Escaping {
  import opened Wrappers

  const Quote: char := '\''
  const Backslash: char := '\\'

  /** `String.replace` of one character by a string: every occurrence of `c` in `s` becomes `replacement`. */
  function ReplaceChar(s: string, c: char, replacement: string): (r: string)
    ensures c !in s ==> r == s
  {
    if |s| == 0 then []
    else (if s[0] == c then replacement else [s[0]]) + ReplaceChar(s[1..], c, replacement)
  }

  /** The two replacement passes: quotes first, then backslashes. */
  function GetPostgresEscapedString(input: string): string {
    ReplaceChar(ReplaceChar(input, Quote, [Quote, Quote]), Backslash, [Backslash, Backslash])
  }

  /** The escape of a single character. */
  function EscapeChar(c: char): (r: string)
    ensures |r| == 1 || |r| == 2
    ensures c != Quote && c != Backslash <==> r == [c]
  {
    if c == Quote then [Quote, Quote]
    else if c == Backslash then [Backslash, Backslash]
    else [c]
  }

  /** Escaping character by character, in one pass. */
  function EscapeEach(s: string): string {
    if |s| == 0 then [] else EscapeChar(s[0]) + EscapeEach(s[1..])
  }

  /** Number of occurrences of `c` in `s`. */
  function Occurrences(s: string, c: char): nat {
    if |s| == 0 then 0 else (if s[0] == c then 1 else 0) + Occurrences(s[1..], c)
  }

  lemma {:induction false} ReplaceCharAppend(a: string, b: string, c: char, replacement: string)
    ensures ReplaceChar(a + b, c, replacement) == ReplaceChar(a, c, replacement) + ReplaceChar(b, c, replacement)
  {
    if |a| == 0 {
      assert a + b == b;
    } else {
      assert (a + b)[0] == a[0];
      assert (a + b)[1..] == a[1..] + b;
      ReplaceCharAppend(a[1..], b, c, replacement);
    }
  }

  /**
   * The second pass leaves the doubled quotes of the first alone, so the
   * two passes equal the one-pass character escape.
   */
  lemma {:induction false} EscapeIsCharacterwise(s: string)
    ensures GetPostgresEscapedString(s) == EscapeEach(s)
  {
    if |s| > 0 {
      EscapeIsCharacterwise(s[1..]);
      var head := if s[0] == Quote then [Quote, Quote] else [s[0]];
      var first := ReplaceChar(s[1..], Quote, [Quote, Quote]);
      assert ReplaceChar(s, Quote, [Quote, Quote]) == head + first;
      ReplaceCharAppend(head, first, Backslash, [Backslash, Backslash]);
      if s[0] == Quote {
        assert ReplaceChar(head, Backslash, [Backslash, Backslash]) == head by {
          assert head[1..] == [Quote];
        }
      } else {
        assert ReplaceChar(head, Backslash, [Backslash, Backslash]) == EscapeChar(s[0]) by {
          assert head[1..] == [];
        }
      }
    }
  }

  /** The escaped string is one character longer for every quote and every backslash. */
  lemma {:induction false} EscapedLength(s: string)
    ensures |GetPostgresEscapedString(s)| == |s| + Occurrences(s, Quote) + Occurrences(s, Backslash)
  {
    EscapeIsCharacterwise(s);
    EscapeEachLength(s);
  }

  lemma {:induction false} EscapeEachLength(s: string)
    ensures |EscapeEach(s)| == |s| + Occurrences(s, Quote) + Occurrences(s, Backslash)
  {
    if |s| > 0 {
      EscapeEachLength(s[1..]);
    }
  }

  /**
   * Reads an escaped literal back: a doubled quote or backslash stands for
   * one; a lone quote or backslash is malformed.
   */
  function Unescape(t: string): (r: Option<string>)
    decreases |t|
  {
    if |t| == 0 then Some([])
    else if t[0] == Quote || t[0] == Backslash then
      if |t| >= 2 && t[1] == t[0] then
        match Unescape(t[2..])
        case Some(rest) => Some([t[0]] + rest)
        case None => None
      else None
    else
      match Unescape(t[1..])
      case Some(rest) => Some([t[0]] + rest)
      case None => None
  }

  /** Escaping loses nothing: reading the escaped string back gives the input. */
  lemma {:induction false} UnescapeEscape(s: string)
    ensures Unescape(GetPostgresEscapedString(s)) == Some(s)
  {
    EscapeIsCharacterwise(s);
    UnescapeEscapeEach(s);
  }

  lemma {:induction false} UnescapeEscapeEach(s: string)
    ensures Unescape(EscapeEach(s)) == Some(s)
  {
    if |s| > 0 {
      UnescapeEscapeEach(s[1..]);
      var t := EscapeEach(s);
      assert t == EscapeChar(s[0]) + EscapeEach(s[1..]);
      if s[0] == Quote || s[0] == Backslash {
        assert t[2..] == EscapeEach(s[1..]);
      } else {
        assert t[1..] == EscapeEach(s[1..]);
      }
      assert s == [s[0]] + s[1..];
    }
  }

  /** Different inputs never escape to the same literal. */
  lemma EscapeInjective(s: string, u: string)
    requires GetPostgresEscapedString(s) == GetPostgresEscapedString(u)
    ensures s == u
  {
    UnescapeEscape(s);
    UnescapeEscape(u);
  }
}

=== FILE: evaluation_log.dfy ===
/**
 * The append-only `evaluation` table: the gate that admits a new evaluation
 * (at most two per fact, at most one per fact and user) and the read that
 * keeps only the first evaluation of every fact.
 */
module EvaluationLog {
  import opened Wrappers
  import opened Model

  /** One row of the evaluation table. */
  datatype EvalRow = EvalRow(timepoint: int, factid: string, arg1: string, relation: string,
                             arg2: string, technique: string, eval: string, username: string,
                             target: string)

  /** Number of rows for a fact id. */
  function RowsFor(log: seq<EvalRow>, factId: string): nat {
    if |log| == 0 then 0
    else RowsFor(log[..|log| - 1], factId) + (if log[|log| - 1].factid == factId then 1 else 0)
  }

  /** Number of rows for a fact id by one user. */
  function RowsForUser(log: seq<EvalRow>, factId: string, username: string): nat {
    if |log| == 0 then 0
    else
      var last := log[|log| - 1];
      RowsForUser(log[..|log| - 1], factId, username)
        + (if last.factid == factId && last.username == username then 1 else 0)
  }

  /** The storage invariant: at most two evaluations per fact, at most one per fact and user. */
  ghost predicate WithinQuota(log: seq<EvalRow>) {
    && (forall f :: RowsFor(log, f) <= 2)
    && (forall f, u :: RowsForUser(log, f, u) <= 1)
  }

  /** A new evaluation is admitted only when the user has not rated the fact and it has fewer than two ratings. */
  predicate ShouldStoreFact(log: seq<EvalRow>, factId: string, username: string) {
    RowsForUser(log, factId, username) == 0 && RowsFor(log, factId) < 2
  }

  /**
   * What the fact lookup returns for an id: subject, relation, object and the
   * extraction technique (the lookup selects the fact by that same id).
   */
  datatype FactDetails = FactDetails(arg1: string, relation: string, arg2: string, technique: string)

  /** The row written for an admitted evaluation. */
  function NewRow(factId: string, d: FactDetails, evaluationTarget: string, username: string,
                  value: string, now: int): EvalRow
  {
    EvalRow(now, factId, d.arg1, d.relation, d.arg2, d.technique, value, username, evaluationTarget)
  }

  /**
   * Records one evaluation. Nothing is written when the gate refuses or when
   * the fact lookup (`details`) finds nothing; otherwise exactly one row.
   */
  function StoreFactEvaluation(log: seq<EvalRow>, factId: string, evaluationTarget: string, username: string,
                               value: string, details: Option<FactDetails>, now: int): (log': seq<EvalRow>)
    ensures ShouldStoreFact(log, factId, username) && details.Some?
            ==> log' == log + [NewRow(factId, details.value, evaluationTarget, username, value, now)]
    ensures !(ShouldStoreFact(log, factId, username) && details.Some?) ==> log' == log
    ensures RowsFor(log', factId) <= 2 || log' == log
    ensures RowsForUser(log', factId, username) <= 1 || log' == log
  {
    if !ShouldStoreFact(log, factId, username) then log
    else if details.None? then log
    else
      var log' := log + [NewRow(factId, details.value, evaluationTarget, username, value, now)];
      assert log'[..|log'| - 1] == log;
      log'
  }

  /** Appending one row changes only the counters that row matches. */
  lemma {:induction false} CountsAfterAppend(log: seq<EvalRow>, row: EvalRow)
    ensures forall f :: RowsFor(log + [row], f) == RowsFor(log, f) + (if row.factid == f then 1 else 0)
    ensures forall f, u :: RowsForUser(log + [row], f, u)
                         == RowsForUser(log, f, u) + (if row.factid == f && row.username == u then 1 else 0)
  {
    assert (log + [row])[..|log + [row]| - 1] == log;
  }

  /** Every store keeps the storage invariant. */
  lemma {:induction false} StorePreservesQuota(log: seq<EvalRow>, factId: string, evaluationTarget: string,
                                               username: string, value: string, details: Option<FactDetails>,
                                               now: int)
    requires WithinQuota(log)
    ensures WithinQuota(StoreFactEvaluation(log, factId, evaluationTarget, username, value, details, now))
  {
    var log' := StoreFactEvaluation(log, factId, evaluationTarget, username, value, details, now);
    if log' != log {
      CountsAfterAppend(log, NewRow(factId, details.value, evaluationTarget, username, value, now));
    }
  }

  /** Once two users have rated a fact, every further store for it is a no-op. */
  lemma {:induction false} ThirdStoreIsNoOp(log: seq<EvalRow>, factId: string, u1: string, u2: string, u3: string,
                                            d1: FactDetails, d2: FactDetails, d3: Option<FactDetails>,
                                            target: string, v1: string, v2: string, v3: string,
                                            t1: int, t2: int, t3: int)
    requires RowsFor(log, factId) == 0
    requires u1 != u2
    ensures var log1 := StoreFactEvaluation(log, factId, target, u1, v1, Some(d1), t1);
            var log2 := StoreFactEvaluation(log1, factId, target, u2, v2, Some(d2), t2);
            && |log2| == |log| + 2
            && StoreFactEvaluation(log2, factId, target, u3, v3, d3, t3) == log2
  {
    var row1 := NewRow(factId, d1, target, u1, v1, t1);
    var row2 := NewRow(factId, d2, target, u2, v2, t2);
    assert RowsForUser(log, factId, u1) == 0 by { ZeroUserRows(log, factId, u1); }
    var log1 := log + [row1];
    CountsAfterAppend(log, row1);
    assert RowsForUser(log1, factId, u2) == 0 by { ZeroUserRows(log, factId, u2); }
    CountsAfterAppend(log1, row2);
  }

  /** A fact without rows has no rows by any user. */
  lemma {:induction false} ZeroUserRows(log: seq<EvalRow>, factId: string, username: string)
    requires RowsFor(log, factId) == 0
    ensures RowsForUser(log, factId, username) == 0
  {
    if |log| > 0 {
      ZeroUserRows(log[..|log| - 1], factId, username);
    }
  }

  // ---------------------------------------------------------------------------
  // First evaluations

  /**
   * A row takes part in the standings when it is not an ignored rating
   * (unless ignored ratings are asked for) and neither its relation nor its
   * technique is excluded.
   */
  predicate Qualifies(row: EvalRow, includeIgnored: bool, excludeRelations: set<string>,
                      excludeTechniques: set<string>)
  {
    && (includeIgnored || row.eval != Ignore)
    && row.relation !in excludeRelations
    && row.technique !in excludeTechniques
  }

  /** Row `i` is the earliest qualifying row of its fact. */
  predicate IsFirst(rows: seq<EvalRow>, i: nat, includeIgnored: bool, excludeRelations: set<string>,
                    excludeTechniques: set<string>)
    requires i < |rows|
  {
    && Qualifies(rows[i], includeIgnored, excludeRelations, excludeTechniques)
    && forall j | 0 <= j < i ::
         Qualifies(rows[j], includeIgnored, excludeRelations, excludeTechniques) ==> rows[j].factid != rows[i].factid
  }

  /** The rows among the first `n` that are the earliest qualifying row of their fact, in table order. */
  function FirstRows(rows: seq<EvalRow>, n: nat, includeIgnored: bool, excludeRelations: set<string>,
                     excludeTechniques: set<string>): seq<EvalRow>
    requires n <= |rows|
  {
    if n == 0 then []
    else
      FirstRows(rows, n - 1, includeIgnored, excludeRelations, excludeTechniques)
        + (if IsFirst(rows, n - 1, includeIgnored, excludeRelations, excludeTechniques) then [rows[n - 1]] else [])
  }

  /** The evaluation entry built from a table row. */
  function ToEntry(row: EvalRow): EvaluationEntry {
    EvaluationEntry(row.timepoint, NewFact(row.arg1, row.relation, row.arg2, row.factid),
                    row.technique, row.username, row.eval, row.target)
  }

  /** The entries of all first evaluations, as the standings and the scheduler read them. */
  function FirstEvaluations(rows: seq<EvalRow>, includeIgnored: bool, excludeRelations: set<string>,
                            excludeTechniques: set<string>): seq<EvaluationEntry>
  {
    var first := FirstRows(rows, |rows|, includeIgnored, excludeRelations, excludeTechniques);
    seq(|first|, k requires 0 <= k < |first| => ToEntry(first[k]))
  }

  /** The fact ids of the qualifying rows among the first `n`. */
  ghost function SeenIds(rows: seq<EvalRow>, n: nat, includeIgnored: bool, excludeRelations: set<string>,
                         excludeTechniques: set<string>): set<string>
    requires n <= |rows|
  {
    set j | 0 <= j < n && Qualifies(rows[j], includeIgnored, excludeRelations, excludeTechniques) :: rows[j].factid
  }

  /**
   * How many rows are read before a database error: `failAt` is the
   * position at which reading raises the error (`Some(0)` when the
   * connection or the query itself fails), `None` when nothing fails.
   */
  function RowsRead(rows: seq<EvalRow>, failAt: Option<nat>): (n: nat)
    ensures n <= |rows|
    ensures failAt.None? ==> n == |rows|
    ensures failAt.Some? ==> n == if failAt.value < |rows| then failAt.value else |rows|
  {
    match failAt
    case None => |rows|
    case Some(k) => if k < |rows| then k else |rows|
  }

  /**
   * The reading loop over the table (already in timepoint order): it skips
   * excluded rows without marking their fact as seen and keeps the first
   * remaining row of every fact. A database error is logged and ends the
   * loop, and the entries collected up to then are returned.
   */
  method GetEvaluationEntries(rows: seq<EvalRow>, failAt: Option<nat>, includeIgnored: bool,
                              excludeRelations: set<string>, excludeTechniques: set<string>)
    returns (entries: seq<EvaluationEntry>)
    ensures entries == FirstEvaluations(rows[..RowsRead(rows, failAt)], includeIgnored, excludeRelations, excludeTechniques)
    ensures failAt.None? ==> entries == FirstEvaluations(rows, includeIgnored, excludeRelations, excludeTechniques)
    ensures entries <= FirstEvaluations(rows, includeIgnored, excludeRelations, excludeTechniques)
  {
    PartialReadIsPrefix(rows, RowsRead(rows, failAt), includeIgnored, excludeRelations, excludeTechniques);
    assert rows[..|rows|] == rows;
    var read := rows[..RowsRead(rows, failAt)];
    entries := ReadEntries(read, includeIgnored, excludeRelations, excludeTechniques);
  }

  /** The reading loop over the rows that were delivered. */
  method ReadEntries(rows: seq<EvalRow>, includeIgnored: bool, excludeRelations: set<string>,
                     excludeTechniques: set<string>) returns (entries: seq<EvaluationEntry>)
    ensures entries == FirstEvaluations(rows, includeIgnored, excludeRelations, excludeTechniques)
  {
    entries := [];
    var allIds: set<string> := {};
    var i := 0;
    ghost var kept: seq<EvalRow> := [];
    while i < |rows|
      invariant 0 <= i <= |rows|
      invariant kept == FirstRows(rows, i, includeIgnored, excludeRelations, excludeTechniques)
      invariant allIds == SeenIds(rows, i, includeIgnored, excludeRelations, excludeTechniques)
      invariant |entries| == |kept|
      invariant forall k :: 0 <= k < |kept| ==> entries[k] == ToEntry(kept[k])
    {
      var row := rows[i];
      if Qualifies(row, includeIgnored, excludeRelations, excludeTechniques) {
        if row.factid !in allIds {
          assert IsFirst(rows, i, includeIgnored, excludeRelations, excludeTechniques);
          entries := entries + [ToEntry(row)];
          kept := kept + [row];
          allIds := allIds + {row.factid};
        } else {
          assert !IsFirst(rows, i, includeIgnored, excludeRelations, excludeTechniques);
        }
      }
      assert SeenIds(rows, i + 1, includeIgnored, excludeRelations, excludeTechniques)
          == allIds + (if Qualifies(row, includeIgnored, excludeRelations, excludeTechniques) then {row.factid} else {});
      i := i + 1;
    }
  }

  /** The first evaluations among a prefix of the rows do not depend on the rows after it. */
  lemma {:induction false} FirstRowsOfPrefix(rows: seq<EvalRow>, k: nat, n: nat, includeIgnored: bool,
                                             excludeRelations: set<string>, excludeTechniques: set<string>)
    requires n <= k <= |rows|
    ensures FirstRows(rows[..k], n, includeIgnored, excludeRelations, excludeTechniques)
         == FirstRows(rows, n, includeIgnored, excludeRelations, excludeTechniques)
  {
    if n > 0 {
      FirstRowsOfPrefix(rows, k, n - 1, includeIgnored, excludeRelations, excludeTechniques);
      assert IsFirst(rows[..k], n - 1, includeIgnored, excludeRelations, excludeTechniques)
          == IsFirst(rows, n - 1, includeIgnored, excludeRelations, excludeTechniques);
    }
  }

  /** Reading further only appends first evaluations. */
  lemma {:induction false} FirstRowsGrow(rows: seq<EvalRow>, m: nat, n: nat, includeIgnored: bool,
                                         excludeRelations: set<string>, excludeTechniques: set<string>)
    requires m <= n <= |rows|
    ensures FirstRows(rows, m, includeIgnored, excludeRelations, excludeTechniques)
         <= FirstRows(rows, n, includeIgnored, excludeRelations, excludeTechniques)
  {
    if m < n {
      FirstRowsGrow(rows, m, n - 1, includeIgnored, excludeRelations, excludeTechniques);
    }
  }

  /** A read cut short by a database error yields a prefix of the full list of first evaluations. */
  lemma PartialReadIsPrefix(rows: seq<EvalRow>, k: nat, includeIgnored: bool, excludeRelations: set<string>,
                            excludeTechniques: set<string>)
    requires k <= |rows|
    ensures FirstEvaluations(rows[..k], includeIgnored, excludeRelations, excludeTechniques)
         <= FirstEvaluations(rows, includeIgnored, excludeRelations, excludeTechniques)
  {
    FirstRowsOfPrefix(rows, k, k, includeIgnored, excludeRelations, excludeTechniques);
    FirstRowsGrow(rows, k, |rows|, includeIgnored, excludeRelations, excludeTechniques);
    var part := FirstRows(rows, k, includeIgnored, excludeRelations, excludeTechniques);
    var whole := FirstRows(rows, |rows|, includeIgnored, excludeRelations, excludeTechniques);
    assert |rows[..k]| == k;
    var a := FirstEvaluations(rows[..k], includeIgnored, excludeRelations, excludeTechniques);
    var b := FirstEvaluations(rows, includeIgnored, excludeRelations, excludeTechniques);
    assert |a| == |part| <= |whole| == |b|;
    forall i | 0 <= i < |a|
      ensures a[i] == b[i]
    {
      assert a[i] == ToEntry(part[i]) && b[i] == ToEntry(whole[i]);
    }
  }

  /** Every kept row qualifies, its fact has been seen, and no two kept rows share a fact id. */
  ghost predicate KeptOnePerFact(first: seq<EvalRow>, seen: set<string>, includeIgnored: bool,
                                 excludeRelations: set<string>, excludeTechniques: set<string>)
  {
    && (forall k :: 0 <= k < |first| ==> Qualifies(first[k], includeIgnored, excludeRelations, excludeTechniques))
    && (forall k :: 0 <= k < |first| ==> first[k].factid in seen)
    && (forall k, l :: 0 <= k < l < |first| ==> first[k].factid != first[l].factid)
  }

  lemma {:induction false} FirstRowsDistinct(rows: seq<EvalRow>, n: nat, includeIgnored: bool,
                                             excludeRelations: set<string>, excludeTechniques: set<string>)
    requires n <= |rows|
    ensures KeptOnePerFact(FirstRows(rows, n, includeIgnored, excludeRelations, excludeTechniques),
                           SeenIds(rows, n, includeIgnored, excludeRelations, excludeTechniques),
                           includeIgnored, excludeRelations, excludeTechniques)
  {
    if n > 0 {
      FirstRowsDistinct(rows, n - 1, includeIgnored, excludeRelations, excludeTechniques);
      var prev := FirstRows(rows, n - 1, includeIgnored, excludeRelations, excludeTechniques);
      var first := FirstRows(rows, n, includeIgnored, excludeRelations, excludeTechniques);
      var seenBefore := SeenIds(rows, n - 1, includeIgnored, excludeRelations, excludeTechniques);
      var seen := SeenIds(rows, n, includeIgnored, excludeRelations, excludeTechniques);
      assert KeptOnePerFact(prev, seenBefore, includeIgnored, excludeRelations, excludeTechniques);
      assert seenBefore <= seen;
      if IsFirst(rows, n - 1, includeIgnored, excludeRelations, excludeTechniques) {
        assert first == prev + [rows[n - 1]];
        assert rows[n - 1].factid in seen;
        assert rows[n - 1].factid !in seenBefore;
        forall k, l | 0 <= k < l < |first| ensures first[k].factid != first[l].factid {
          assert first[k] == prev[k];
          if l < |prev| {
            assert first[l] == prev[l];
          }
        }
      } else {
        assert first == prev;
      }
    }
  }

  /** Every qualifying row's fact is represented among the kept rows. */
  lemma {:induction false} FirstRowsCover(rows: seq<EvalRow>, n: nat, includeIgnored: bool,
                                          excludeRelations: set<string>, excludeTechniques: set<string>)
    requires n <= |rows|
    ensures forall f :: f in SeenIds(rows, n, includeIgnored, excludeRelations, excludeTechniques)
              ==> f in FactIds(FirstRows(rows, n, includeIgnored, excludeRelations, excludeTechniques))
  {
    if n > 0 {
      FirstRowsCover(rows, n - 1, includeIgnored, excludeRelations, excludeTechniques);
      var prev := FirstRows(rows, n - 1, includeIgnored, excludeRelations, excludeTechniques);
      var first := FirstRows(rows, n, includeIgnored, excludeRelations, excludeTechniques);
      var seenBefore := SeenIds(rows, n - 1, includeIgnored, excludeRelations, excludeTechniques);
      var seen := SeenIds(rows, n, includeIgnored, excludeRelations, excludeTechniques);
      assert forall k :: 0 <= k < |prev| ==> first[k] == prev[k];
      assert FactIds(prev) <= FactIds(first) by {
        forall f | f in FactIds(prev) ensures f in FactIds(first) {
          var k :| 0 <= k < |prev| && prev[k].factid == f;
          assert first[k].factid == f;
        }
      }
      if Qualifies(rows[n - 1], includeIgnored, excludeRelations, excludeTechniques) {
        assert seen == seenBefore + {rows[n - 1].factid};
        if IsFirst(rows, n - 1, includeIgnored, excludeRelations, excludeTechniques) {
          assert first[|prev|] == rows[n - 1];
        } else {
          assert rows[n - 1].factid in seenBefore;
        }
      } else {
        assert seen == seenBefore;
      }
    }
  }

  /** The fact ids of a sequence of rows. */
  ghost function FactIds(rows: seq<EvalRow>): set<string> {
    set k | 0 <= k < |rows| :: rows[k].factid
  }

  /**
   * The first evaluations have pairwise distinct fact ids, are never ignored
   * ratings unless those are asked for, and every fact with a qualifying row
   * is represented.
   */
  lemma FirstEvaluationsOnePerFact(rows: seq<EvalRow>, includeIgnored: bool, excludeRelations: set<string>,
                                   excludeTechniques: set<string>)
    ensures var entries := FirstEvaluations(rows, includeIgnored, excludeRelations, excludeTechniques);
            && (forall k, l :: 0 <= k < l < |entries| ==> entries[k].fact.id != entries[l].fact.id)
            && (forall i :: 0 <= i < |rows| && Qualifies(rows[i], includeIgnored, excludeRelations, excludeTechniques)
                  ==> exists k :: 0 <= k < |entries| && entries[k].fact.id == rows[i].factid)
            && (forall k :: 0 <= k < |entries| ==> includeIgnored || entries[k].evaluationResult != Ignore)
  {
    var first := FirstRows(rows, |rows|, includeIgnored, excludeRelations, excludeTechniques);
    var entries := FirstEvaluations(rows, includeIgnored, excludeRelations, excludeTechniques);
    FirstRowsDistinct(rows, |rows|, includeIgnored, excludeRelations, excludeTechniques);
    FirstRowsCover(rows, |rows|, includeIgnored, excludeRelations, excludeTechniques);
    assert forall k :: 0 <= k < |entries| ==> entries[k] == ToEntry(first[k]);
    assert KeptOnePerFact(first, SeenIds(rows, |rows|, includeIgnored, excludeRelations, excludeTechniques),
                          includeIgnored, excludeRelations, excludeTechniques);
    forall i | 0 <= i < |rows| && Qualifies(rows[i], includeIgnored, excludeRelations, excludeTechniques)
      ensures exists k :: 0 <= k < |entries| && entries[k].fact.id == rows[i].factid
    {
      assert rows[i].factid in SeenIds(rows, |rows|, includeIgnored, excludeRelations, excludeTechniques);
      var k :| 0 <= k < |first| && first[k].factid == rows[i].factid;
      assert entries[k].fact.id == rows[i].factid;
    }
  }
}

=== FILE: fact_lookup.dfy ===
/**
 * Two lookups of the fact database: the relations that are evaluation
 * targets, and the facts attached to a fact (facts whose subject is the
 * fact's id). The database tables are sequences of rows; the SQL filters
 * become predicates over those rows.
 */
module FactLookup {
  import opened Wrappers
  import Sequences
  import Strings
  import Model

  /** The domain of the relations that describe facts themselves (meta relations). */
  const YagoFact: string := "rdf:Statement"

  /** A row of the relation/technique summary table. */
  datatype MetaRow = MetaRow(relation: string, technique: string)

  /** The SQL filter of the relation query: neither the technique nor the relation is excluded. */
  predicate Selected(row: MetaRow, excludeTechniques: seq<string>, excludeRelations: seq<string>) {
    row.technique !in excludeTechniques && row.relation !in excludeRelations
  }

  /**
   * The relations to evaluate: those of selected rows whose domain (as looked
   * up by `domainOf`, which yields "NONE" for a relation without one) is not
   * the meta-relation domain. With `includeMetaRelations` set the loop adds
   * nothing at all, so the result is empty.
   */
  method GetAllRelations(table: seq<MetaRow>, excludeTechniques: seq<string>, excludeRelations: seq<string>,
                         domainOf: string -> string, includeMetaRelations: bool)
    returns (relations: set<string>)
    ensures includeMetaRelations ==> relations == {}
    ensures forall r :: r in relations <==>
              && !includeMetaRelations
              && domainOf(r) != YagoFact
              && exists i :: 0 <= i < |table| && table[i].relation == r
                             && Selected(table[i], excludeTechniques, excludeRelations)
  {
    relations := {};
    var i := 0;
    while i < |table|
      invariant 0 <= i <= |table|
      invariant forall r :: r in relations <==>
                  && !includeMetaRelations
                  && domainOf(r) != YagoFact
                  && exists k :: 0 <= k < i && table[k].relation == r
                                 && Selected(table[k], excludeTechniques, excludeRelations)
    {
      if Selected(table[i], excludeTechniques, excludeRelations) {
        var relation := table[i].relation;
        if !includeMetaRelations && domainOf(relation) != YagoFact {
          relations := relations + {relation};
        }
      }
      i := i + 1;
    }
  }

  /** A row of the facts table; the id column may be null. */
  datatype FactRow = FactRow(id: Option<string>, subject: string, relation: string, arg2: string)

  /** The SQL filter of the related-facts query: subject is the fact's id, relation not excluded. */
  function About(factId: string, excludeRelations: seq<string>): FactRow -> bool {
    (row: FactRow) => row.subject == factId && row.relation !in excludeRelations
  }

  /** Number of rows with a null id among the first `n`. */
  function NullsBefore(rows: seq<FactRow>, n: nat): (count: nat)
    requires n <= |rows|
    ensures count <= n
  {
    if n == 0 then 0 else NullsBefore(rows, n - 1) + (if rows[n - 1].id.None? then 1 else 0)
  }

  /**
   * The id the related fact built from row `i` receives: the row's own id,
   * or the fact's id followed by the number of id-less rows up to and
   * including this one.
   */
  function SynthesizedId(factId: string, rows: seq<FactRow>, i: nat): string
    requires i < |rows|
  {
    match rows[i].id
    case Some(id) => id
    case None => factId + Strings.NatToString(NullsBefore(rows, i) + 1)
  }

  /**
   * The facts attached to `fact`, in query order: subject the fact's id,
   * relation and object from the row. A row without an id gets the fact's id
   * followed by a counter that starts at 1 and advances only on such rows.
   */
  method GetRelatedFactsForFact(fact: Model.Fact, table: seq<FactRow>, excludeRelations: seq<string>)
    returns (related: seq<Model.Fact>)
    ensures var rows := Sequences.Keep(table, About(fact.id, excludeRelations));
            && |related| == |rows|
            && forall i :: 0 <= i < |rows| ==>
                 related[i] == Model.NewFact(fact.id, rows[i].relation, rows[i].arg2, SynthesizedId(fact.id, rows, i))
  {
    var rows := Sequences.Keep(table, About(fact.id, excludeRelations));
    related := [];
    var count := 1;
    var i := 0;
    while i < |rows|
      invariant 0 <= i <= |rows|
      invariant count == NullsBefore(rows, i) + 1
      invariant |related| == i
      invariant forall k :: 0 <= k < i ==>
                  related[k] == Model.NewFact(fact.id, rows[k].relation, rows[k].arg2, SynthesizedId(fact.id, rows, k))
    {
      var id: string;
      match rows[i].id {
        case Some(v) => id := v;
        case None =>
          id := fact.id + Strings.NatToString(count);
          count := count + 1;
      }
      related := related + [Model.NewFact(fact.id, rows[i].relation, rows[i].arg2, id)];
      i := i + 1;
    }
  }

  lemma {:induction false} NullsBeforeMonotone(rows: seq<FactRow>, i: nat, j: nat)
    requires i < j <= |rows|
    ensures NullsBefore(rows, i) + (if rows[i].id.None? then 1 else 0) <= NullsBefore(rows, j)
    decreases j - i
  {
    if j > i + 1 {
      NullsBeforeMonotone(rows, i, j - 1);
    }
  }

  /**
   * Two rows without an id never receive the same synthesized id: the
   * counters differ, and distinct counters print as distinct suffixes.
   */
  lemma SynthesizedIdsDistinct(factId: string, rows: seq<FactRow>, i: nat, j: nat)
    requires i < j < |rows| && rows[i].id.None? && rows[j].id.None?
    ensures SynthesizedId(factId, rows, i) != SynthesizedId(factId, rows, j)
  {
    NullsBeforeMonotone(rows, i, j);
    var a := Strings.NatToString(NullsBefore(rows, i) + 1);
    var b := Strings.NatToString(NullsBefore(rows, j) + 1);
    if factId + a == factId + b {
      assert a == (factId + a)[|factId|..];
      assert b == (factId + b)[|factId|..];
      Strings.NatToStringInjective(NullsBefore(rows, i) + 1, NullsBefore(rows, j) + 1);
    }
  }
}

=== FILE: model.dfy ===
/**
 * The records of the evaluation application: a fact, one evaluation entry, and
 * the constants for evaluation results and evaluation targets.
 */
module Model {
  import opened Wrappers

  /** The three evaluation results a user can give. */
  const Right: string := "@right"
  const Wrong: string := "@wrong"
  const Ignore: string := "@ignore"

  /** The two kinds of evaluation target: a relation name or a technique name. */
  datatype TargetKind = RelationKind | TechniqueKind {
    /** The target string stored with every evaluation. */
    function Name(): string {
      match this
      case RelationKind => "relation"
      case TechniqueKind => "technique"
    }
  }

  /**
   * A (subject, relation, object) fact with its id; the technique and the
   * evaluation target are unset (None) until something sets them.
   */
  datatype Fact = Fact(arg1: string, relation: string, arg2: string, id: string,
                       technique: Option<string>, evaluationTarget: Option<string>)
  {
    function WithEvaluationTarget(target: string): (f: Fact)
      ensures f.evaluationTarget == Some(target)
      ensures f.(evaluationTarget := evaluationTarget) == this
    {
      this.(evaluationTarget := Some(target))
    }
  }

  /** The four-argument constructor of a fact (the predicate is the fact's relation). */
  function NewFact(arg1: string, relation: string, arg2: string, id: string): (f: Fact)
    ensures f.arg1 == arg1 && f.relation == relation && f.arg2 == arg2 && f.id == id
    ensures f.technique == None && f.evaluationTarget == None
  {
    Fact(arg1, relation, arg2, id, None, None)
  }

  /**
   * One evaluation: when, of which fact, the technique recorded with it, by
   * whom, the result string and the target string it was made for.
   */
  datatype EvaluationEntry = EvaluationEntry(time: int, fact: Fact, technique: string, user: string,
                                             evaluationResult: string, target: string)

  /** The value an entry is grouped under for a target string; None for an unknown target. */
  function GetValueForTarget(e: EvaluationEntry, target: string): (v: Option<string>)
    ensures v.None? <==> target != RelationKind.Name() && target != TechniqueKind.Name()
  {
    if target == RelationKind.Name() then Some(e.fact.relation)
    else if target == TechniqueKind.Name() then Some(e.technique)
    else None
  }

  /** An entry counts as correct exactly when its result is "@right". */
  predicate IsCorrect(e: EvaluationEntry) {
    e.evaluationResult == Right
  }

  /** For both target kinds, the grouping value is the fact's relation or the entry's own technique. */
  lemma ValueForKinds(e: EvaluationEntry)
    ensures GetValueForTarget(e, RelationKind.Name()) == Some(e.fact.relation)
    ensures GetValueForTarget(e, TechniqueKind.Name()) == Some(e.technique)
  {
  }

  /** Only "@right" is correct; "@wrong" and "@ignore" both are not. */
  lemma CorrectOnlyWhenRight(e: EvaluationEntry)
    ensures IsCorrect(e) <==> e.evaluationResult == Right
    ensures e.evaluationResult == Wrong ==> !IsCorrect(e)
    ensures e.evaluationResult == Ignore ==> !IsCorrect(e)
  {
  }

  /** Drops the first and the last character of strings longer than two. */
  function StripAngleBrackets(s: string): (r: string)
    ensures |s| <= 2 ==> r == s
    ensures |s| > 2 ==> |r| == |s| - 2
  {
    if |s| <= 2 then s else s[1..|s| - 1]
  }

  /**
   * Stripping undoes any one-character wrapping of a non-empty string,
   * whether or not the wrapping characters are angle brackets.
   */
  lemma StripUnwraps(open: char, x: string, close: char)
    requires |x| >= 1
    ensures StripAngleBrackets([open] + x + [close]) == x
  {
    var s := [open] + x + [close];
    assert s[1..|s| - 1] == x;
  }

  /** "<>" is returned unchanged: the empty name inside cannot be recovered. */
  lemma StripKeepsEmptyBrackets()
    ensures StripAngleBrackets("<>") == "<>"
  {
  }
}

=== FILE: sampling.dfy ===
/**
 * Candidate ids for random facts. The id ranges of a relation (one range per
 * technique) are chosen with probability proportional to their size, then up
 * to `numberOfFacts` ids are drawn inside the chosen range and duplicates are
 * dropped without drawing again. Random numbers are inputs: an interval draw
 * in [0, total) and one offset per requested fact.
 */
module Sampling {
  import opened Wrappers
  import Sequences

  /** A range of consecutive ids: `first`, `first + 1`, ..., `first + count - 1`. */
  datatype Interval = Interval(first: nat, count: nat)

  /** Number of ids in the first `i` ranges. */
  function Cum(intervals: seq<Interval>, i: nat): nat
    requires i <= |intervals|
  {
    if i == 0 then 0 else Cum(intervals, i - 1) + intervals[i - 1].count
  }

  /** Number of ids in all ranges. */
  function Total(intervals: seq<Interval>): nat {
    Cum(intervals, |intervals|)
  }

  lemma {:induction false} CumMonotone(intervals: seq<Interval>, i: nat, j: nat)
    requires i <= j <= |intervals|
    ensures Cum(intervals, i) <= Cum(intervals, j)
    decreases j - i
  {
    if i < j {
      CumMonotone(intervals, i, j - 1);
    }
  }

  /** The walk over the ranges: `current` is the weight of the ranges already passed. */
  function Walk(intervals: seq<Interval>, i: nat, current: nat, draw: nat): (r: Option<nat>)
    requires i <= |intervals| && current == Cum(intervals, i) && current <= draw
    ensures r.Some? ==> i <= r.value < |intervals|
                        && Cum(intervals, r.value) <= draw < Cum(intervals, r.value + 1)
    ensures r.None? ==> Total(intervals) <= draw
    decreases |intervals| - i
  {
    if i == |intervals| then None
    else if draw < current + intervals[i].count then Some(i)
    else Walk(intervals, i + 1, current + intervals[i].count, draw)
  }

  /**
   * The range the draw falls in: the first one whose cumulative size exceeds
   * the draw. None means the walk ran past the last range, which happens only
   * for a draw at or beyond the total.
   */
  function ChooseInterval(intervals: seq<Interval>, draw: nat): (r: Option<nat>)
    ensures r.Some? <==> draw < Total(intervals)
    ensures r.Some? ==> r.value < |intervals| && intervals[r.value].count > 0
    ensures r.Some? ==> forall j :: 1 <= j <= r.value ==> Cum(intervals, j) <= draw
  {
    WalkChoosesFirst(intervals, draw);
    Walk(intervals, 0, 0, draw)
  }

  lemma WalkChoosesFirst(intervals: seq<Interval>, draw: nat)
    ensures var r := Walk(intervals, 0, 0, draw);
            && (r.Some? <==> draw < Total(intervals))
            && (r.Some? ==> forall j :: 1 <= j <= r.value ==> Cum(intervals, j) <= draw)
  {
    var r := Walk(intervals, 0, 0, draw);
    if r.Some? {
      CumMonotone(intervals, r.value + 1, |intervals|);
      forall j | 1 <= j <= r.value ensures Cum(intervals, j) <= draw {
        CumMonotone(intervals, j, r.value);
      }
    }
  }

  /**
   * The draws that select range `i` are exactly those in
   * [Cum(i), Cum(i) + count_i): each range is chosen for as many of the
   * `Total` equally likely draws as it has ids.
   */
  lemma ChooseIntervalIsWeighted(intervals: seq<Interval>, draw: nat, i: nat)
    requires i < |intervals|
    ensures ChooseInterval(intervals, draw) == Some(i)
            <==> Cum(intervals, i) <= draw < Cum(intervals, i) + intervals[i].count
  {
    var r := Walk(intervals, 0, 0, draw);
    if Cum(intervals, i) <= draw < Cum(intervals, i + 1) {
      CumMonotone(intervals, i + 1, |intervals|);
      if r.value < i {
        CumMonotone(intervals, r.value + 1, i);
      } else if r.value > i {
        CumMonotone(intervals, i + 1, r.value);
      }
    }
  }

  /** A drawn offset for a range of `count` ids: below `count`, or 0 for an empty range. */
  predicate OffsetFits(offset: nat, count: nat) {
    if count == 0 then offset == 0 else offset < count
  }

  predicate OffsetsFit(offsets: seq<nat>, count: nat) {
    forall k :: 0 <= k < |offsets| ==> OffsetFits(offsets[k], count)
  }

  /** The ids `first + offset` in drawing order, each kept only the first time it is drawn. */
  function Dedup(first: nat, offsets: seq<nat>): (ids: seq<int>)
    ensures |ids| <= |offsets|
    ensures Sequences.Distinct(ids)
    ensures forall x :: x in ids <==> exists k :: 0 <= k < |offsets| && x == first + offsets[k]
  {
    if |offsets| == 0 then []
    else
      var prefix := offsets[..|offsets| - 1];
      var prev := Dedup(first, prefix);
      var id := first + offsets[|offsets| - 1];
      assert forall k :: 0 <= k < |prefix| ==> prefix[k] == offsets[k];
      if id in prev then prev else prev + [id]
  }

  /** The outcome of the relation sampler: candidate ids, or the walk running past the last range. */
  datatype Sample = Candidates(ids: seq<int>) | IntervalOverrun

  /**
   * Candidate ids for a relation: nothing for an empty range list, otherwise
   * de-duplicated ids inside the one chosen range.
   */
  function SampleRelationIds(intervals: seq<Interval>, numberOfFacts: nat, intervalDraw: nat,
                             offsets: seq<nat>): (r: Sample)
    requires |offsets| == numberOfFacts
    requires Total(intervals) > 0 ==> intervalDraw < Total(intervals)
    requires ChooseInterval(intervals, intervalDraw).Some?
             ==> OffsetsFit(offsets, intervals[ChooseInterval(intervals, intervalDraw).value].count)
    ensures |intervals| == 0 ==> r == Candidates([])
    ensures r.IntervalOverrun? <==> |intervals| > 0 && Total(intervals) == 0
    ensures r.Candidates? ==> |r.ids| <= numberOfFacts && Sequences.Distinct(r.ids)
    ensures r.Candidates? && |intervals| > 0 ==>
              var i := ChooseInterval(intervals, intervalDraw).value;
              forall x :: x in r.ids ==> intervals[i].first <= x < intervals[i].first + intervals[i].count
    ensures r.Candidates? && |intervals| > 0 ==>
              r.ids == Dedup(intervals[ChooseInterval(intervals, intervalDraw).value].first, offsets)
  {
    if |intervals| == 0 then Candidates([])
    else match ChooseInterval(intervals, intervalDraw)
      case None => IntervalOverrun
      case Some(i) => Candidates(Dedup(intervals[i].first, offsets))
  }

  /**
   * Candidate ids for a technique, from its single (first, count) row:
   * nothing without a row; an empty range still yields its `first` id.
   */
  function SampleTechniqueIds(row: Option<Interval>, numberOfFacts: nat, offsets: seq<nat>): (ids: seq<int>)
    requires |offsets| == numberOfFacts
    requires row.Some? ==> OffsetsFit(offsets, row.value.count)
    ensures row.None? ==> ids == []
    ensures |ids| <= numberOfFacts && Sequences.Distinct(ids)
    ensures row.Some? && row.value.count > 0 ==>
              forall x :: x in ids ==> row.value.first <= x < row.value.first + row.value.count
    ensures row.Some? && row.value.count == 0 && numberOfFacts > 0 ==> ids == [row.value.first]
    ensures row.Some? ==> ids == Dedup(row.value.first, offsets)
  {
    match row
    case None => []
    case Some(iv) =>
      EmptyRangeYieldsFirst(iv, offsets);
      Dedup(iv.first, offsets)
  }

  lemma EmptyRangeYieldsFirst(iv: Interval, offsets: seq<nat>)
    requires OffsetsFit(offsets, iv.count)
    ensures iv.count == 0 && |offsets| > 0 ==> Dedup(iv.first, offsets) == [iv.first]
  {
    var ids := Dedup(iv.first, offsets);
    if iv.count == 0 && |offsets| > 0 {
      assert iv.first in ids by { assert iv.first == iv.first + offsets[0]; }
      assert forall x :: x in ids ==> x == iv.first;
      assert |ids| == 1 by {
        if |ids| > 1 { assert false; }
      }
    }
  }

  /**
   * The draws that land in range `i` make the relation sampler return the
   * de-duplicated ids drawn inside range `i`: each range supplies the
   * candidates for as many of the equally likely draws as it has ids.
   */
  lemma RelationIdsFromWeightedRange(intervals: seq<Interval>, numberOfFacts: nat, intervalDraw: nat,
                                     offsets: seq<nat>, i: nat)
    requires i < |intervals|
    requires Cum(intervals, i) <= intervalDraw < Cum(intervals, i) + intervals[i].count
    requires |offsets| == numberOfFacts
    requires OffsetsFit(offsets, intervals[i].count)
    ensures Total(intervals) > 0 && ChooseInterval(intervals, intervalDraw) == Some(i)
    ensures SampleRelationIds(intervals, numberOfFacts, intervalDraw, offsets)
            == Candidates(Dedup(intervals[i].first, offsets))
  {
    ChooseIntervalIsWeighted(intervals, intervalDraw, i);
  }
}

=== FILE: scheduler.dfy ===
/**
 * The evaluation scheduler: which fact a user evaluates next. Its state is
 * the current target kind and name (always assigned together) and a quota of
 * further facts to draw from that target. A call first tries the quota, then
 * scans the unfinished relations and then the unfinished techniques in order
 * of ascending progress, then optionally hands out a fact for a second
 * evaluation, and otherwise reports that the evaluation is done.
 *
 * The database and the random draws form a `Store` of given values and
 * functions; the model says what the scheduler does with them.
 */
module Scheduler {
  import opened Wrappers
  import opened Model
  import Sequences
  import Strings
  import Standings
  import Wilson
  import Doubles
  import Agreement

  /** The quota a target receives when a scan picks it. */
  const MaxRemainingFactsForCurrentTarget: int := 10

  /** Whether the scheduler asks for second evaluations (for kappa); off in the source. */
  const DoKappaEvaluation: bool := false

  /** The progress that stands for "no second evaluation needed" when kappa evaluation is off. */
  const KappaProgressWhenOff: real := 2.0

  /** The target kinds of the scheduler. Only the first two are ever assigned. */
  datatype EvaluationTarget = Relation | Technique | Kappa | Done {
    /** The kind of target a draw is made for, for the two drawable kinds. */
    function Kind(): Option<TargetKind> {
      match this
      case Relation => Some(RelationKind)
      case Technique => Some(TechniqueKind)
      case _ => None
    }
  }

  function TargetFor(kind: TargetKind): (t: EvaluationTarget)
    ensures t.Kind() == Some(kind)
  {
    match kind
    case RelationKind => Relation
    case TechniqueKind => Technique
  }

  /** The current target kind together with the relation or technique name. */
  datatype Current = Current(target: EvaluationTarget, name: string)

  /** The scheduler's static fields; `current` is None until the first scan tries a target. */
  datatype State = State(current: Option<Current>, remainingFactsForCurrentTarget: int)

  const Initial: State := State(None, 0)

  /** While there is quota left there is a current target, so the quota draw never switches on null. */
  predicate QuotaHasTarget(s: State) {
    s.remainingFactsForCurrentTarget > 0 ==> s.current.Some?
  }

  /** The invariant of the scheduler's state. */
  predicate Valid(s: State) {
    && QuotaHasTarget(s)
    && 0 <= s.remainingFactsForCurrentTarget <= MaxRemainingFactsForCurrentTarget
    && (s.current.Some? ==> s.current.value.target.Kind().Some?)
  }

  /**
   * What the scheduler reads: the first evaluation of each fact, the relations
   * and techniques (each once, in the iteration order of their progress map),
   * the Wilson half-width, the draws of a random unevaluated fact for a target
   * in the quota path and in the scans, the facts attached to a fact, the
   * inputs of the double-evaluation progress, and the fact offered for a
   * second evaluation to a user.
   */
  datatype Store = Store(
    entries: seq<EvaluationEntry>,
    relations: seq<string>,
    techniques: seq<string>,
    halfWidth: (int, int) -> real,
    quotaDraw: (TargetKind, string) -> Option<Fact>,
    scanDraw: (TargetKind, string) -> Option<Fact>,
    related: Fact -> seq<Fact>,
    twiceEvaluatedFacts: nat,
    evaluatedFacts: int,
    secondEvaluation: string -> Option<Fact>)

  /** What a call hands back: facts to evaluate, a (possibly missing) fact to evaluate again, or "done". */
  datatype Outcome = Dispense(facts: seq<Fact>) | SecondEvaluation(fact: Option<Fact>) | Finished

  // ---------------------------------------------------------------------------
  // Progress per target

  /** The progress a target should have: 0 without entries, else the Wilson score of its counts. */
  function ExpectedProgress(entries: seq<EvaluationEntry>, kind: TargetKind, halfWidth: (int, int) -> real,
                            t: string): real
  {
    var n := Standings.CountMatching(entries, kind, t);
    if n == 0 then 0.0 else Wilson.Progress(halfWidth(n, Standings.CountCorrect(entries, kind, t)))
  }

  /**
   * The progress of every target: 0.0 by default, overwritten for the targets
   * that have a standings row, from that row's Evaluations and Correct texts
   * read back as numbers.
   */
  function GetProgressForEvaluationTarget(allTargets: seq<string>, kind: TargetKind,
                                          entries: seq<EvaluationEntry>, halfWidth: (int, int) -> real)
    : (progress: map<string, real>)
    ensures progress.Keys == set t | t in allTargets
    ensures forall t :: t in allTargets ==> progress[t] == ExpectedProgress(entries, kind, halfWidth, t)
  {
    var rows := Standings.GroupByTarget(entries, kind);
    ParsedCountsAreCounts(rows);
    map t | t in allTargets ::
      match Standings.Lookup(rows, t)
      case None => 0.0
      case Some(r) =>
        var total := Strings.ParseNat(Standings.ColumnValue(r, Standings.EvaluationsColumn));
        var correct := Strings.ParseNat(Standings.ColumnValue(r, Standings.CorrectColumn));
        Wilson.ProgressOf(halfWidth, total, correct)
  }

  /** The Evaluations and Correct texts of a row read back as the row's counts. */
  lemma ParsedCountsAreCounts(rows: seq<Standings.Row>)
    ensures forall r :: r in rows ==>
              && Strings.ParseNat(Standings.ColumnValue(r, Standings.EvaluationsColumn)) == r.total
              && Strings.ParseNat(Standings.ColumnValue(r, Standings.CorrectColumn)) == r.correct
  {
    forall r | r in rows
      ensures && Strings.ParseNat(Standings.ColumnValue(r, Standings.EvaluationsColumn)) == r.total
              && Strings.ParseNat(Standings.ColumnValue(r, Standings.CorrectColumn)) == r.correct
    {
      Strings.ParseNatToString(r.total);
      Strings.ParseNatToString(r.correct);
    }
  }

  // ---------------------------------------------------------------------------
  // Remaining targets

  /** The progress of a target as a sort key (targets outside the map do not occur). */
  function ProgressKey(progress: map<string, real>): string -> real {
    t => if t in progress then progress[t] else 0.0
  }

  /** The progress comparator. */
  function AtMost(): (real, real) -> bool {
    (a: real, b: real) => a <= b
  }

  function Unfinished(progress: map<string, real>): string -> bool {
    t => ProgressKey(progress)(t) < 1.0
  }

  lemma AtMostIsTotalPreorder()
    ensures Sequences.TotalPreorder(AtMost())
  {
  }

  /**
   * The targets still to evaluate: the map's entries (in iteration order
   * `order`) stably sorted by ascending progress, keeping those below 1.0.
   */
  function GetRemainingSubTargets(order: seq<string>, progress: map<string, real>): (todo: seq<string>)
    requires forall t :: t in order ==> t in progress
    ensures forall t :: t in todo <==> t in order && progress[t] < 1.0
    ensures Sequences.Distinct(order) ==> Sequences.Distinct(todo)
    ensures forall i, j :: 0 <= i < j < |todo| ==> progress[todo[i]] <= progress[todo[j]]
    ensures forall p :: p < 1.0 ==>
              Sequences.WithKey(todo, ProgressKey(progress), p) == Sequences.WithKey(order, ProgressKey(progress), p)
  {
    RemainingSortedAndDistinct(order, progress);
    RemainingStable(order, progress);
    Sequences.Keep(Sequences.SortBy(order, ProgressKey(progress), AtMost()), Unfinished(progress))
  }

  /** The remaining targets are the unfinished ones, ascending, and distinct when the map's keys are. */
  lemma RemainingSortedAndDistinct(order: seq<string>, progress: map<string, real>)
    requires forall t :: t in order ==> t in progress
    ensures var todo := Sequences.Keep(Sequences.SortBy(order, ProgressKey(progress), AtMost()), Unfinished(progress));
            && (forall t :: t in todo <==> t in order && progress[t] < 1.0)
            && (Sequences.Distinct(order) ==> Sequences.Distinct(todo))
            && (forall i, j :: 0 <= i < j < |todo| ==> progress[todo[i]] <= progress[todo[j]])
  {
    var key := ProgressKey(progress);
    var sorted := Sequences.SortBy(order, key, AtMost());
    assert forall t :: t in sorted <==> t in order by {
      assert forall t :: t in sorted <==> t in multiset(sorted);
      assert forall t :: t in order <==> t in multiset(order);
    }
    AtMostIsTotalPreorder();
    Sequences.SortBySorted(order, key, AtMost());
    Sequences.KeepSorted(sorted, Unfinished(progress), key, AtMost());
    if Sequences.Distinct(order) {
      DistinctIsDistinctBy(order);
      Sequences.SortByDistinctBy(order, key, AtMost(), Identity());
      DistinctIsDistinctBy(sorted);
      Sequences.KeepDistinct(sorted, Unfinished(progress));
    }
  }

  function Identity(): string -> string {
    t => t
  }

  lemma DistinctIsDistinctBy(s: seq<string>)
    ensures Sequences.Distinct(s) <==> Sequences.DistinctBy(s, Identity())
  {
  }

  /** Targets with equal progress below 1.0 keep their iteration order. */
  lemma RemainingStable(order: seq<string>, progress: map<string, real>)
    ensures forall p :: p < 1.0 ==>
              Sequences.WithKey(Sequences.Keep(Sequences.SortBy(order, ProgressKey(progress), AtMost()),
                                               Unfinished(progress)), ProgressKey(progress), p)
              == Sequences.WithKey(order, ProgressKey(progress), p)
  {
    var key := ProgressKey(progress);
    var sorted := Sequences.SortBy(order, key, AtMost());
    AtMostIsTotalPreorder();
    forall p | p < 1.0
      ensures Sequences.WithKey(Sequences.Keep(sorted, Unfinished(progress)), key, p)
              == Sequences.WithKey(order, key, p)
    {
      Sequences.KeepWithKey(sorted, Unfinished(progress), key, p);
      Sequences.SortByStable(order, key, AtMost(), p);
      Sequences.WithKeyElements(order, key, p);
      Sequences.KeepAll(Sequences.WithKey(order, key, p), Unfinished(progress));
    }
  }

  /** The relations or techniques the scans try, in order. */
  function ToDo(store: Store, kind: TargetKind): seq<string> {
    var all := if kind == RelationKind then store.relations else store.techniques;
    GetRemainingSubTargets(all, GetProgressForEvaluationTarget(all, kind, store.entries, store.halfWidth))
  }

  /**
   * A target is scanned exactly when it is one of its kind and either has no
   * evaluations yet or its Wilson half-width is still above the target width.
   */
  lemma ToDoMeansUnfinished(store: Store, kind: TargetKind, t: string)
    ensures var all := if kind == RelationKind then store.relations else store.techniques;
            var n := Standings.CountMatching(store.entries, kind, t);
            t in ToDo(store, kind) <==>
              t in all && (n == 0 || store.halfWidth(n, Standings.CountCorrect(store.entries, kind, t))
                                     > Wilson.TargetInterval)
  {
    var n := Standings.CountMatching(store.entries, kind, t);
    if n > 0 {
      Wilson.ProgressBelowOne(store.halfWidth(n, Standings.CountCorrect(store.entries, kind, t)));
    }
  }

  // ---------------------------------------------------------------------------
  // The scans

  /** The first position whose target yields a fact, if any. */
  function FirstYielding(names: seq<string>, kind: TargetKind, draw: (TargetKind, string) -> Option<Fact>)
    : (r: Option<nat>)
    ensures r.Some? <==> exists i :: 0 <= i < |names| && draw(kind, names[i]).Some?
    ensures r.Some? ==> r.value < |names| && draw(kind, names[r.value]).Some?
                        && forall j :: 0 <= j < r.value ==> draw(kind, names[j]).None?
  {
    if |names| == 0 then None
    else if draw(kind, names[0]).Some? then Some(0)
    else match FirstYielding(names[1..], kind, draw)
      case None => None
      case Some(i) => Some(i + 1)
  }

  /**
   * The scan loop over one kind: each tried target becomes current before
   * its draw; the first one that yields a fact also gets the full quota.
   * After a scan without a fact the last tried target stays current.
   */
  function TryTargets(s: State, kind: TargetKind, names: seq<string>, draw: (TargetKind, string) -> Option<Fact>)
    : (r: (State, Option<Fact>))
    decreases |names|
    ensures r.1.Some? ==>
              var i := FirstYielding(names, kind, draw);
              && i.Some?
              && r.1 == draw(kind, names[i.value])
              && r.0 == State(Some(Current(TargetFor(kind), names[i.value])), MaxRemainingFactsForCurrentTarget)
    ensures r.1.None? ==>
              && FirstYielding(names, kind, draw).None?
              && r.0 == if |names| == 0 then s
                        else s.(current := Some(Current(TargetFor(kind), names[|names| - 1])))
  {
    if |names| == 0 then (s, None)
    else
      var tried := s.(current := Some(Current(TargetFor(kind), names[0])));
      match draw(kind, names[0])
      case Some(f) => (tried.(remainingFactsForCurrentTarget := MaxRemainingFactsForCurrentTarget), Some(f))
      case None =>
        var r := TryTargets(tried, kind, names[1..], draw);
        assert |names| > 1 ==> names[1..][|names[1..]| - 1] == names[|names| - 1];
        r
  }

  // ---------------------------------------------------------------------------
  // One call of the scheduler

  /**
   * The quota draw from the current target. A relation or technique draw is
   * marked with the target kind it was drawn for; the other two kinds draw
   * nothing.
   */
  function GetRandomFact(s: State, store: Store): (f: Option<Fact>)
    requires s.current.Some?
    ensures f.Some? <==> s.current.value.target.Kind().Some?
                         && store.quotaDraw(s.current.value.target.Kind().value, s.current.value.name).Some?
    ensures f.Some? ==>
              var kind := s.current.value.target.Kind().value;
              var drawn := store.quotaDraw(kind, s.current.value.name).value;
              f.value.evaluationTarget == Some(kind.Name())
              && f.value.(evaluationTarget := drawn.evaluationTarget) == drawn
  {
    match s.current.value.target.Kind()
    case None => None
    case Some(kind) =>
      match store.quotaDraw(kind, s.current.value.name)
      case None => None
      case Some(fact) => Some(fact.WithEvaluationTarget(kind.Name()))
  }

  /** The progress of the double evaluation as the scheduler sees it. */
  function KappaProgress(store: Store, kappaEnabled: bool): Doubles.Double {
    if kappaEnabled then Agreement.TwiceEvaluatedProgress(store.twiceEvaluatedFacts, store.evaluatedFacts)
    else Doubles.Finite(KappaProgressWhenOff)
  }

  /** A fact together with its attached facts. */
  function WithRelated(store: Store, f: Fact): seq<Fact> {
    [f] + store.related(f)
  }

  /**
   * Everything after the quota path, over the remaining relations and
   * techniques in scan order: the relation scan, the technique scan, the
   * second evaluation, done.
   */
  function ScanTargets(s: State, store: Store, relations: seq<string>, techniques: seq<string>,
                       excludedUser: string, kappaEnabled: bool): (r: (State, Outcome))
    ensures Valid(s) ==> Valid(r.0)
    ensures r.1.Dispense? ==> |r.1.facts| >= 1
    ensures r.0.remainingFactsForCurrentTarget == MaxRemainingFactsForCurrentTarget
            || r.0.remainingFactsForCurrentTarget == s.remainingFactsForCurrentTarget
  {
    var (afterRelations, relationFact) := TryTargets(s, RelationKind, relations, store.scanDraw);
    match relationFact
    case Some(f) => (afterRelations, Dispense(WithRelated(store, f)))
    case None =>
      var (afterTechniques, techniqueFact) := TryTargets(afterRelations, TechniqueKind, techniques, store.scanDraw);
      match techniqueFact
      case Some(f) => (afterTechniques, Dispense(WithRelated(store, f)))
      case None =>
        if Doubles.LessThan(KappaProgress(store, kappaEnabled), 1.0)
        then (afterTechniques, SecondEvaluation(store.secondEvaluation(excludedUser)))
        else (afterTechniques, Finished)
  }

  /** The scans over the targets whose progress is below 1.0. */
  function Scan(s: State, store: Store, excludedUser: string, kappaEnabled: bool): (r: (State, Outcome))
    ensures Valid(s) ==> Valid(r.0)
    ensures r.1.Dispense? ==> |r.1.facts| >= 1
    ensures r.0.remainingFactsForCurrentTarget == MaxRemainingFactsForCurrentTarget
            || r.0.remainingFactsForCurrentTarget == s.remainingFactsForCurrentTarget
  {
    ScanTargets(s, store, ToDo(store, RelationKind), ToDo(store, TechniqueKind), excludedUser, kappaEnabled)
  }

  /** One call: keep drawing from the current target while quota is left, otherwise scan. */
  function Step(s: State, store: Store, excludedUser: string, kappaEnabled: bool): (r: (State, Outcome))
    requires QuotaHasTarget(s)
    ensures Valid(s) ==> Valid(r.0)
    ensures r.1.Dispense? ==> |r.1.facts| >= 1
  {
    if s.remainingFactsForCurrentTarget > 0 then
      match GetRandomFact(s, store)
      case Some(f) =>
        (s.(remainingFactsForCurrentTarget := s.remainingFactsForCurrentTarget - 1), Dispense(WithRelated(store, f)))
      case None => Scan(s, store, excludedUser, kappaEnabled)
    else Scan(s, store, excludedUser, kappaEnabled)
  }

  /** The scheduler as configured: kappa evaluation off. */
  function GetRandomFactForEvaluation(s: State, store: Store, excludedUser: string): (r: (State, Outcome))
    requires QuotaHasTarget(s)
    ensures !r.1.SecondEvaluation?
    ensures Valid(s) ==> Valid(r.0)
  {
    Step(s, store, excludedUser, DoKappaEvaluation)
  }

  // ---------------------------------------------------------------------------
  // Properties of a call

  /** The quota path hit: there is quota left and the current target yields a fact. */
  predicate QuotaHit(s: State, store: Store)
    requires QuotaHasTarget(s)
  {
    s.remainingFactsForCurrentTarget > 0 && GetRandomFact(s, store).Some?
  }

  /** No target in a scan list yields a fact. */
  predicate NoneYields(names: seq<string>, kind: TargetKind, draw: (TargetKind, string) -> Option<Fact>) {
    forall t :: t in names ==> draw(kind, t).None?
  }

  lemma NoYieldMeansNoFirst(names: seq<string>, kind: TargetKind, draw: (TargetKind, string) -> Option<Fact>)
    ensures NoneYields(names, kind, draw) <==> FirstYielding(names, kind, draw).None?
  {
    if FirstYielding(names, kind, draw).Some? {
      var i := FirstYielding(names, kind, draw).value;
      assert names[i] in names;
    }
  }

  lemma InitialIsValid()
    ensures Valid(Initial)
  {
  }

  /**
   * A quota hit hands out the marked fact with its attached facts, uses up
   * exactly one unit of quota and keeps the target.
   */
  lemma QuotaPath(s: State, store: Store, excludedUser: string, kappaEnabled: bool)
    requires QuotaHasTarget(s) && QuotaHit(s, store)
    ensures var f := GetRandomFact(s, store).value;
            && Step(s, store, excludedUser, kappaEnabled).1 == Dispense([f] + store.related(f))
            && f.evaluationTarget == Some(s.current.value.target.Kind().value.Name())
            && Step(s, store, excludedUser, kappaEnabled).0.current == s.current
            && Step(s, store, excludedUser, kappaEnabled).0.remainingFactsForCurrentTarget
               == s.remainingFactsForCurrentTarget - 1
  {
  }

  /** Without a quota hit the call is the scan, and the quota is either refilled or left as it was. */
  lemma QuotaMissFallsThrough(s: State, store: Store, excludedUser: string, kappaEnabled: bool)
    requires QuotaHasTarget(s) && !QuotaHit(s, store)
    ensures Step(s, store, excludedUser, kappaEnabled) == Scan(s, store, excludedUser, kappaEnabled)
    ensures var q := Step(s, store, excludedUser, kappaEnabled).0.remainingFactsForCurrentTarget;
            q == MaxRemainingFactsForCurrentTarget || q == s.remainingFactsForCurrentTarget
  {
  }

  /**
   * Relations come first: when some relation in the scan yields a fact, the
   * first such relation becomes current with a full quota, and its draw
   * (unmarked) heads the output.
   */
  lemma RelationsBeforeTechniques(s: State, store: Store, relations: seq<string>, techniques: seq<string>,
                                  excludedUser: string, kappaEnabled: bool)
    requires !NoneYields(relations, RelationKind, store.scanDraw)
    ensures var i := FirstYielding(relations, RelationKind, store.scanDraw);
            var f := store.scanDraw(RelationKind, relations[i.value]).value;
            && i.Some?
            && ScanTargets(s, store, relations, techniques, excludedUser, kappaEnabled)
               == (State(Some(Current(Relation, relations[i.value])), MaxRemainingFactsForCurrentTarget),
                   Dispense([f] + store.related(f)))
  {
    NoYieldMeansNoFirst(relations, RelationKind, store.scanDraw);
  }

  /**
   * Techniques are scanned only when no relation in the scan yields a fact;
   * the first yielding technique becomes current with a full quota.
   */
  lemma TechniquesAfterRelations(s: State, store: Store, relations: seq<string>, techniques: seq<string>,
                                 excludedUser: string, kappaEnabled: bool)
    requires NoneYields(relations, RelationKind, store.scanDraw)
    requires !NoneYields(techniques, TechniqueKind, store.scanDraw)
    ensures var i := FirstYielding(techniques, TechniqueKind, store.scanDraw);
            var f := store.scanDraw(TechniqueKind, techniques[i.value]).value;
            && i.Some?
            && ScanTargets(s, store, relations, techniques, excludedUser, kappaEnabled)
               == (State(Some(Current(Technique, techniques[i.value])), MaxRemainingFactsForCurrentTarget),
                   Dispense([f] + store.related(f)))
  {
    NoYieldMeansNoFirst(relations, RelationKind, store.scanDraw);
    NoYieldMeansNoFirst(techniques, TechniqueKind, store.scanDraw);
  }

  /**
   * After scans that find nothing, the last technique tried is current (or,
   * without techniques to try, the last relation tried, or else the old
   * target), and the quota is untouched.
   */
  lemma FailedScanKeepsLastTried(s: State, store: Store, relations: seq<string>, techniques: seq<string>,
                                 excludedUser: string, kappaEnabled: bool)
    requires NoneYields(relations, RelationKind, store.scanDraw)
    requires NoneYields(techniques, TechniqueKind, store.scanDraw)
    ensures var r := ScanTargets(s, store, relations, techniques, excludedUser, kappaEnabled).0;
            && r.remainingFactsForCurrentTarget == s.remainingFactsForCurrentTarget
            && r.current == if |techniques| > 0 then Some(Current(Technique, techniques[|techniques| - 1]))
                            else if |relations| > 0 then Some(Current(Relation, relations[|relations| - 1]))
                            else s.current
  {
    NoYieldMeansNoFirst(relations, RelationKind, store.scanDraw);
    NoYieldMeansNoFirst(techniques, TechniqueKind, store.scanDraw);
  }

  /**
   * The scans report "done" exactly when no relation or technique yields a
   * fact and the double-evaluation progress is not below 1.0.
   */
  lemma ScanDoneExactly(s: State, store: Store, relations: seq<string>, techniques: seq<string>,
                        excludedUser: string, kappaEnabled: bool)
    ensures ScanTargets(s, store, relations, techniques, excludedUser, kappaEnabled).1.Finished?
            <==> && NoneYields(relations, RelationKind, store.scanDraw)
                 && NoneYields(techniques, TechniqueKind, store.scanDraw)
                 && !Doubles.LessThan(KappaProgress(store, kappaEnabled), 1.0)
  {
    NoYieldMeansNoFirst(relations, RelationKind, store.scanDraw);
    NoYieldMeansNoFirst(techniques, TechniqueKind, store.scanDraw);
  }

  /**
   * A call reports "done" exactly when the quota path misses, no remaining
   * relation or technique yields a fact, and the double-evaluation progress
   * is not below 1.0.
   */
  lemma DoneExactly(s: State, store: Store, excludedUser: string, kappaEnabled: bool)
    requires QuotaHasTarget(s)
    ensures Step(s, store, excludedUser, kappaEnabled).1.Finished?
            <==> && !QuotaHit(s, store)
                 && NoneYields(ToDo(store, RelationKind), RelationKind, store.scanDraw)
                 && NoneYields(ToDo(store, TechniqueKind), TechniqueKind, store.scanDraw)
                 && !Doubles.LessThan(KappaProgress(store, kappaEnabled), 1.0)
  {
    ScanDoneExactly(s, store, ToDo(store, RelationKind), ToDo(store, TechniqueKind), excludedUser, kappaEnabled);
  }

  /**
   * With kappa evaluation on, scans that find nothing ask for a second
   * evaluation exactly while the twice-evaluated facts are fewer than a tenth
   * of the other evaluations (or exceed all evaluations), and hand out the
   * store's possibly missing fact.
   */
  lemma SecondEvaluationWhenBehind(s: State, store: Store, relations: seq<string>, techniques: seq<string>,
                                   excludedUser: string)
    requires NoneYields(relations, RelationKind, store.scanDraw)
    requires NoneYields(techniques, TechniqueKind, store.scanDraw)
    ensures var d, t := store.twiceEvaluatedFacts, store.evaluatedFacts;
            ScanTargets(s, store, relations, techniques, excludedUser, true).1.SecondEvaluation?
            <==> t < d || (t > d && 11 * d < t)
    ensures ScanTargets(s, store, relations, techniques, excludedUser, true).1.SecondEvaluation? ==>
              ScanTargets(s, store, relations, techniques, excludedUser, true).1.fact
              == store.secondEvaluation(excludedUser)
  {
    NoYieldMeansNoFirst(relations, RelationKind, store.scanDraw);
    NoYieldMeansNoFirst(techniques, TechniqueKind, store.scanDraw);
  }

  /** A target that the scans make current comes from the scan list of its kind. */
  lemma ScanPicksListed(s: State, store: Store, relations: seq<string>, techniques: seq<string>,
                        excludedUser: string, kappaEnabled: bool)
    ensures var r := ScanTargets(s, store, relations, techniques, excludedUser, kappaEnabled);
            r.0.current != s.current && r.0.current.Some? ==>
              || (r.0.current.value.target == Relation && r.0.current.value.name in relations)
              || (r.0.current.value.target == Technique && r.0.current.value.name in techniques)
  {
    var (s1, rf) := TryTargets(s, RelationKind, relations, store.scanDraw);
    if rf.None? {
      if |relations| > 0 {
        assert relations[|relations| - 1] in relations;
      }
      var (s2, tf) := TryTargets(s1, TechniqueKind, techniques, store.scanDraw);
      if tf.Some? {
        var i := FirstYielding(techniques, TechniqueKind, store.scanDraw).value;
        assert techniques[i] in techniques;
      } else if |techniques| > 0 {
        assert techniques[|techniques| - 1] in techniques;
      }
    } else {
      var i := FirstYielding(relations, RelationKind, store.scanDraw).value;
      assert relations[i] in relations;
    }
  }

  /**
   * A call only ever makes a target current whose progress is below 1.0:
   * one without evaluations or with a Wilson half-width above the target.
   */
  lemma StepPicksUnfinished(s: State, store: Store, excludedUser: string, kappaEnabled: bool, kind: TargetKind)
    requires QuotaHasTarget(s)
    ensures var r := Step(s, store, excludedUser, kappaEnabled).0;
            r.current != s.current && r.current.Some? && r.current.value.target == TargetFor(kind) ==>
              var name := r.current.value.name;
              var n := Standings.CountMatching(store.entries, kind, name);
              n == 0 || store.halfWidth(n, Standings.CountCorrect(store.entries, kind, name)) > Wilson.TargetInterval
  {
    var relations := ToDo(store, RelationKind);
    var techniques := ToDo(store, TechniqueKind);
    ScanPicksListed(s, store, relations, techniques, excludedUser, kappaEnabled);
    var r := Step(s, store, excludedUser, kappaEnabled).0;
    if r.current != s.current && r.current.Some? && r.current.value.target == TargetFor(kind) {
      ToDoMeansUnfinished(store, kind, r.current.value.name);
    }
  }
}

=== FILE: sequences.dfy ===
/**
 * Sequence utilities shared by the model: filtering, duplicate-freedom and a
 * stable insertion sort that stands in for java.util.Collections.sort (a
 * stable merge sort) under a caller-supplied comparator.
 */
module Sequences {

  /** The elements of `s` satisfying `p`, in their original order. */
  function Keep<T(!new)>(s: seq<T>, p: T -> bool): (r: seq<T>)
    ensures |r| <= |s|
    ensures forall x :: x in r <==> x in s && p(x)
  {
    if |s| == 0 then []
    else if p(s[0]) then [s[0]] + Keep(s[1..], p)
    else Keep(s[1..], p)
  }

  /** No two positions of `s` agree on `f`. */
  ghost predicate DistinctBy<T, K>(s: seq<T>, f: T -> K) {
    forall i, j :: 0 <= i < j < |s| ==> f(s[i]) != f(s[j])
  }

  /** No element of `s` occurs twice. */
  ghost predicate Distinct<T>(s: seq<T>) {
    forall i, j :: 0 <= i < j < |s| ==> s[i] != s[j]
  }

  lemma {:induction false} KeepDistinct<T(!new)>(s: seq<T>, p: T -> bool)
    requires Distinct(s)
    ensures Distinct(Keep(s, p))
  {
    if |s| > 0 {
      KeepDistinct(s[1..], p);
      assert s[0] !in s[1..] by {
        forall j | 0 <= j < |s[1..]| ensures s[1..][j] != s[0] {
          assert s[1..][j] == s[j + 1];
        }
      }
    }
  }

  /** A comparator "a sorts no later than b" that is total and transitive. */
  ghost predicate TotalPreorder<K(!new)>(le: (K, K) -> bool) {
    && (forall a, b :: le(a, b) || le(b, a))
    && (forall a, b, c :: le(a, b) && le(b, c) ==> le(a, c))
  }

  /** Every earlier element's key sorts no later than every later element's key. */
  ghost predicate SortedBy<T, K>(s: seq<T>, key: T -> K, le: (K, K) -> bool) {
    forall i, j :: 0 <= i < j < |s| ==> le(key(s[i]), key(s[j]))
  }

  /** The elements of `s` whose key is exactly `k`, in their original order. */
  ghost function WithKey<T, K>(s: seq<T>, key: T -> K, k: K): seq<T> {
    if |s| == 0 then []
    else (if key(s[0]) == k then [s[0]] else []) + WithKey(s[1..], key, k)
  }

  /** Inserts `x` before the first element it sorts no later than. */
  function Insert<T, K>(x: T, s: seq<T>, key: T -> K, le: (K, K) -> bool): (r: seq<T>)
    ensures |r| == |s| + 1
    ensures multiset(r) == multiset(s) + multiset{x}
  {
    if |s| == 0 || le(key(x), key(s[0])) then [x] + s
    else
      assert s == [s[0]] + s[1..];
      [s[0]] + Insert(x, s[1..], key, le)
  }

  /**
   * Stable sort of `s` by `key` under `le`: an element moves ahead of a later
   * element only when the later one does not sort before it.
   */
  function SortBy<T, K>(s: seq<T>, key: T -> K, le: (K, K) -> bool): (r: seq<T>)
    ensures |r| == |s|
    ensures multiset(r) == multiset(s)
  {
    if |s| == 0 then []
    else
      assert s == [s[0]] + s[1..];
      Insert(s[0], SortBy(s[1..], key, le), key, le)
  }

  lemma {:induction false} InsertSorted<T, K(!new)>(x: T, s: seq<T>, key: T -> K, le: (K, K) -> bool)
    requires TotalPreorder(le)
    requires SortedBy(s, key, le)
    ensures SortedBy(Insert(x, s, key, le), key, le)
  {
    if |s| == 0 || le(key(x), key(s[0])) {
      var r := [x] + s;
      forall i, j | 0 <= i < j < |r| ensures le(key(r[i]), key(r[j])) {
        if i == 0 && j > 1 {
          assert le(key(s[0]), key(s[j - 1]));
        }
      }
    } else {
      var t := Insert(x, s[1..], key, le);
      InsertSorted(x, s[1..], key, le);
      var r := [s[0]] + t;
      assert le(key(s[0]), key(x));
      forall i, j | 0 <= i < j < |r| ensures le(key(r[i]), key(r[j])) {
        if i == 0 {
          var y := t[j - 1];
          assert y in multiset(t);
          assert y == x || y in s[1..];
          if y != x {
            var m :| 0 <= m < |s[1..]| && s[1..][m] == y;
            assert s[m + 1] == y;
          }
        }
      }
    }
  }

  /** The sort's output is ordered by the comparator. */
  lemma {:induction false} SortBySorted<T, K(!new)>(s: seq<T>, key: T -> K, le: (K, K) -> bool)
    requires TotalPreorder(le)
    ensures SortedBy(SortBy(s, key, le), key, le)
  {
    if |s| > 0 {
      SortBySorted(s[1..], key, le);
      InsertSorted(s[0], SortBy(s[1..], key, le), key, le);
    }
  }

  lemma {:induction false} InsertWithKey<T, K(!new)>(x: T, s: seq<T>, key: T -> K, le: (K, K) -> bool, k: K)
    requires TotalPreorder(le)
    ensures WithKey(Insert(x, s, key, le), key, k)
         == (if key(x) == k then [x] else []) + WithKey(s, key, k)
  {
    if |s| == 0 || le(key(x), key(s[0])) {
      assert ([x] + s)[1..] == s;
    } else {
      InsertWithKey(x, s[1..], key, le, k);
      var t := Insert(x, s[1..], key, le);
      var r := [s[0]] + t;
      assert r[1..] == t;
      assert key(s[0]) != key(x) by {
        assert le(key(x), key(x));
      }
      var head := if key(s[0]) == k then [s[0]] else [];
      var mine := if key(x) == k then [x] else [];
      assert WithKey(r, key, k) == head + WithKey(t, key, k);
      assert WithKey(s, key, k) == head + WithKey(s[1..], key, k);
      assert head == [] || mine == [];
    }
  }

  /** Stability: the elements sharing any one key keep their input order. */
  lemma {:induction false} SortByStable<T, K(!new)>(s: seq<T>, key: T -> K, le: (K, K) -> bool, k: K)
    requires TotalPreorder(le)
    ensures WithKey(SortBy(s, key, le), key, k) == WithKey(s, key, k)
  {
    if |s| > 0 {
      SortByStable(s[1..], key, le, k);
      InsertWithKey(s[0], SortBy(s[1..], key, le), key, le, k);
    }
  }

  lemma {:induction false} InsertDistinctBy<T(!new), K, F>(x: T, s: seq<T>, key: T -> K, le: (K, K) -> bool, f: T -> F)
    requires DistinctBy(s, f)
    requires forall y :: y in s ==> f(y) != f(x)
    ensures DistinctBy(Insert(x, s, key, le), f)
  {
    if |s| == 0 || le(key(x), key(s[0])) {
      var r := [x] + s;
      forall i, j | 0 <= i < j < |r| ensures f(r[i]) != f(r[j]) {
        if i == 0 { assert r[j] in s; }
      }
    } else {
      InsertDistinctBy(x, s[1..], key, le, f);
      var t := Insert(x, s[1..], key, le);
      var r := [s[0]] + t;
      forall i, j | 0 <= i < j < |r| ensures f(r[i]) != f(r[j]) {
        if i == 0 {
          var y := t[j - 1];
          assert y in multiset(t);
          if y != x {
            assert y in s[1..];
            var m :| 0 <= m < |s[1..]| && s[1..][m] == y;
            assert s[m + 1] == y;
          }
        }
      }
    }
  }

  /** Sorting keeps a sequence free of duplicates under any projection. */
  lemma {:induction false} SortByDistinctBy<T(!new), K, F>(s: seq<T>, key: T -> K, le: (K, K) -> bool, f: T -> F)
    requires DistinctBy(s, f)
    ensures DistinctBy(SortBy(s, key, le), f)
  {
    if |s| > 0 {
      assert DistinctBy(s[1..], f) by {
        forall i, j | 0 <= i < j < |s[1..]| ensures f(s[1..][i]) != f(s[1..][j]) {
          assert s[1..][i] == s[i + 1] && s[1..][j] == s[j + 1];
        }
      }
      SortByDistinctBy(s[1..], key, le, f);
      var t := SortBy(s[1..], key, le);
      forall y | y in t ensures f(y) != f(s[0]) {
        assert y in multiset(s[1..]);
        var m :| 0 <= m < |s[1..]| && s[1..][m] == y;
        assert s[m + 1] == y;
      }
      InsertDistinctBy(s[0], t, key, le, f);
    }
  }

  lemma {:induction false} KeepSorted<T(!new), K>(s: seq<T>, p: T -> bool, key: T -> K, le: (K, K) -> bool)
    requires SortedBy(s, key, le)
    ensures SortedBy(Keep(s, p), key, le)
  {
    if |s| > 0 {
      assert SortedBy(s[1..], key, le) by {
        forall i, j | 0 <= i < j < |s[1..]| ensures le(key(s[1..][i]), key(s[1..][j])) {
          assert s[1..][i] == s[i + 1] && s[1..][j] == s[j + 1];
        }
      }
      KeepSorted(s[1..], p, key, le);
      if p(s[0]) {
        var t := Keep(s[1..], p);
        var r := [s[0]] + t;
        forall i, j | 0 <= i < j < |r| ensures le(key(r[i]), key(r[j])) {
          if i == 0 {
            assert t[j - 1] in s[1..];
            var m :| 0 <= m < |s[1..]| && s[1..][m] == t[j - 1];
            assert s[m + 1] == t[j - 1];
          }
        }
      }
    }
  }

  /** Filtering and selecting one key commute. */
  lemma {:induction false} KeepWithKey<T(!new), K>(s: seq<T>, p: T -> bool, key: T -> K, k: K)
    ensures WithKey(Keep(s, p), key, k) == Keep(WithKey(s, key, k), p)
  {
    if |s| > 0 {
      KeepWithKey(s[1..], p, key, k);
      if p(s[0]) {
        assert ([s[0]] + Keep(s[1..], p))[1..] == Keep(s[1..], p);
      }
      if key(s[0]) == k {
        assert ([s[0]] + WithKey(s[1..], key, k))[1..] == WithKey(s[1..], key, k);
      } else {
        assert [] + WithKey(s[1..], key, k) == WithKey(s[1..], key, k);
      }
    }
  }

  /** Filtering with a predicate true of every element changes nothing. */
  lemma {:induction false} KeepAll<T(!new)>(s: seq<T>, p: T -> bool)
    requires forall x :: x in s ==> p(x)
    ensures Keep(s, p) == s
  {
    if |s| > 0 {
      assert forall x :: x in s[1..] ==> x in s;
      KeepAll(s[1..], p);
    }
  }

  /** Filtering with a predicate false of every element leaves nothing. */
  lemma {:induction false} KeepNone<T(!new)>(s: seq<T>, p: T -> bool)
    requires forall x :: x in s ==> !p(x)
    ensures Keep(s, p) == []
  {
    if |s| > 0 {
      assert forall x :: x in s[1..] ==> x in s;
      KeepNone(s[1..], p);
    }
  }

  /** The elements with one key all have that key. */
  lemma {:induction false} WithKeyElements<T(!new), K>(s: seq<T>, key: T -> K, k: K)
    ensures forall x :: x in WithKey(s, key, k) <==> x in s && key(x) == k
  {
    if |s| > 0 {
      WithKeyElements(s[1..], key, k);
    }
  }
}

=== FILE: standings.dfy ===
/**
 * The standings table: evaluation entries grouped per target value (one row
 * per relation or per technique) with their evaluation and correct counts,
 * sorted by a column compared as strings.
 */
module Standings {
  import opened Wrappers
  import opened Model
  import Sequences
  import Strings

  /** One standings row: a target value with its number of evaluations and of correct ones. */
  datatype Row = Row(target: string, total: nat, correct: nat)

  function TargetOf(r: Row): string { r.target }

  /** An entry was made for the requested kind of target. */
  predicate Matches(e: EvaluationEntry, kind: TargetKind) {
    e.target == kind.Name()
  }

  /** The relation or technique an entry is grouped under. */
  function ValueOf(e: EvaluationEntry, kind: TargetKind): string {
    GetValueForTarget(e, kind.Name()).value
  }

  /** Number of entries for `kind` grouped under `v`. */
  function CountMatching(entries: seq<EvaluationEntry>, kind: TargetKind, v: string): nat {
    if |entries| == 0 then 0
    else
      var e := entries[|entries| - 1];
      CountMatching(entries[..|entries| - 1], kind, v) + (if Matches(e, kind) && ValueOf(e, kind) == v then 1 else 0)
  }

  /** Number of correct entries for `kind` grouped under `v`. */
  function CountCorrect(entries: seq<EvaluationEntry>, kind: TargetKind, v: string): nat {
    if |entries| == 0 then 0
    else
      var e := entries[|entries| - 1];
      CountCorrect(entries[..|entries| - 1], kind, v)
        + (if Matches(e, kind) && ValueOf(e, kind) == v && IsCorrect(e) then 1 else 0)
  }

  /** Number of entries for `kind`. */
  function MatchingTotal(entries: seq<EvaluationEntry>, kind: TargetKind): nat {
    if |entries| == 0 then 0
    else MatchingTotal(entries[..|entries| - 1], kind) + (if Matches(entries[|entries| - 1], kind) then 1 else 0)
  }

  lemma {:induction false} CorrectAtMostMatching(entries: seq<EvaluationEntry>, kind: TargetKind, v: string)
    ensures CountCorrect(entries, kind, v) <= CountMatching(entries, kind, v)
  {
    if |entries| > 0 {
      CorrectAtMostMatching(entries[..|entries| - 1], kind, v);
    }
  }

  /** The first row for target value `v`, if any. */
  function Lookup(rows: seq<Row>, v: string): (r: Option<Row>)
    ensures r.Some? ==> r.value in rows && r.value.target == v
    ensures r.None? ==> forall x :: x in rows ==> x.target != v
  {
    if |rows| == 0 then None
    else if rows[0].target == v then Some(rows[0])
    else Lookup(rows[1..], v)
  }

  /** Counts one more entry for `v`, adding a row for `v` if it has none. */
  function Tally(rows: seq<Row>, v: string, correct: bool): seq<Row> {
    var c := if correct then 1 else 0;
    if |rows| == 0 then [Row(v, 1, c)]
    else if rows[0].target == v then [rows[0].(total := rows[0].total + 1, correct := rows[0].correct + c)] + rows[1..]
    else [rows[0]] + Tally(rows[1..], v, correct)
  }

  /** One pass over the entries, counting per target value (rows in order of first appearance). */
  function Aggregate(entries: seq<EvaluationEntry>, kind: TargetKind): seq<Row> {
    if |entries| == 0 then []
    else
      var rows := Aggregate(entries[..|entries| - 1], kind);
      var e := entries[|entries| - 1];
      if Matches(e, kind) then Tally(rows, ValueOf(e, kind), IsCorrect(e)) else rows
  }

  /** The row the counts call for: none without entries, else the totals. */
  function ExpectedRow(entries: seq<EvaluationEntry>, kind: TargetKind, v: string): Option<Row> {
    var n := CountMatching(entries, kind, v);
    if n == 0 then None else Some(Row(v, n, CountCorrect(entries, kind, v)))
  }

  /** The row for `v` after counting one more entry for it, given its row before. */
  function Bumped(before: Option<Row>, v: string, correct: bool): Row {
    var c := if correct then 1 else 0;
    match before
    case None => Row(v, 1, c)
    case Some(r) => Row(v, r.total + 1, r.correct + c)
  }

  lemma TallyLookup(rows: seq<Row>, v: string, correct: bool, w: string)
    ensures var c := if correct then 1 else 0;
            Lookup(Tally(rows, v, correct), w)
              == if w != v then Lookup(rows, w)
                 else match Lookup(rows, v)
                      case None => Some(Row(v, 1, c))
                      case Some(r) => Some(Row(v, r.total + 1, r.correct + c))
  {
    if w == v {
      TallyLookupSame(rows, v, correct);
    } else {
      TallyLookupOther(rows, v, correct, w);
    }
  }

  /** Counting an entry for `v` adds one to the row of `v`, or creates it. */
  lemma {:induction false} TallyLookupSame(rows: seq<Row>, v: string, correct: bool)
    ensures Lookup(Tally(rows, v, correct), v) == Some(Bumped(Lookup(rows, v), v, correct))
  {
    if |rows| == 0 {
      assert Tally(rows, v, correct) == [Bumped(None, v, correct)];
    } else if rows[0].target == v {
      TallyLookupSameHead(rows, v, correct);
    } else {
      TallyLookupSame(rows[1..], v, correct);
      TallyLookupSameStep(rows, v, correct);
    }
  }

  lemma TallyLookupSameHead(rows: seq<Row>, v: string, correct: bool)
    requires |rows| > 0 && rows[0].target == v
    ensures Lookup(Tally(rows, v, correct), v) == Some(Bumped(Lookup(rows, v), v, correct))
  {
    var t := Tally(rows, v, correct);
    assert Lookup(rows, v) == Some(rows[0]);
    assert t[0] == Bumped(Some(rows[0]), v, correct);
  }

  lemma TallyLookupSameStep(rows: seq<Row>, v: string, correct: bool)
    requires |rows| > 0 && rows[0].target != v
    requires Lookup(Tally(rows[1..], v, correct), v) == Some(Bumped(Lookup(rows[1..], v), v, correct))
    ensures Lookup(Tally(rows, v, correct), v) == Some(Bumped(Lookup(rows, v), v, correct))
  {
    var t := Tally(rows, v, correct);
    assert t[0] == rows[0];
    assert t[1..] == Tally(rows[1..], v, correct);
  }

  /** Counting an entry for `v` leaves the rows of other values alone. */
  lemma {:induction false} TallyLookupOther(rows: seq<Row>, v: string, correct: bool, w: string)
    requires w != v
    ensures Lookup(Tally(rows, v, correct), w) == Lookup(rows, w)
  {
    if |rows| > 0 {
      var t := Tally(rows, v, correct);
      if rows[0].target == v {
        assert t[1..] == rows[1..];
      } else {
        TallyLookupOther(rows[1..], v, correct, w);
        assert t[1..] == Tally(rows[1..], v, correct);
      }
    }
  }

  /** The rest of a sequence with distinct targets has distinct targets, none equal to the head's. */
  lemma DistinctTail(rows: seq<Row>)
    requires |rows| > 0 && Sequences.DistinctBy(rows, TargetOf)
    ensures Sequences.DistinctBy(rows[1..], TargetOf)
    ensures forall x :: x in rows[1..] ==> x.target != rows[0].target
  {
    forall i, j | 0 <= i < j < |rows[1..]| ensures rows[1..][i].target != rows[1..][j].target {
      assert rows[1..][i] == rows[i + 1] && rows[1..][j] == rows[j + 1];
    }
    forall x | x in rows[1..] ensures x.target != rows[0].target {
      var m :| 0 <= m < |rows[1..]| && rows[1..][m] == x;
      assert rows[m + 1] == x;
    }
  }

  lemma {:induction false} TallyDistinct(rows: seq<Row>, v: string, correct: bool)
    requires Sequences.DistinctBy(rows, TargetOf)
    ensures Sequences.DistinctBy(Tally(rows, v, correct), TargetOf)
    ensures forall x :: x in Tally(rows, v, correct) ==> x.target == v || x in rows
  {
    if |rows| > 0 {
      if rows[0].target == v {
        TallyHead(rows, v, correct);
      } else {
        DistinctTail(rows);
        TallyDistinct(rows[1..], v, correct);
        TallyDistinctStep(rows, v, correct);
      }
    }
  }

  lemma TallyDistinctStep(rows: seq<Row>, v: string, correct: bool)
    requires |rows| > 0 && rows[0].target != v
    requires forall x :: x in rows[1..] ==> x.target != rows[0].target
    requires Sequences.DistinctBy(Tally(rows[1..], v, correct), TargetOf)
    requires forall x :: x in Tally(rows[1..], v, correct) ==> x.target == v || x in rows[1..]
    ensures Sequences.DistinctBy(Tally(rows, v, correct), TargetOf)
    ensures forall x :: x in Tally(rows, v, correct) ==> x.target == v || x in rows
  {
    var t := Tally(rows, v, correct);
    var rest := Tally(rows[1..], v, correct);
    assert t == [rows[0]] + rest;
    forall i, j | 0 <= i < j < |t| ensures t[i].target != t[j].target {
      assert t[j] == rest[j - 1] && t[j] in rest;
      if i > 0 {
        assert t[i] == rest[i - 1];
      }
    }
  }

  /** Counting into the head row keeps every target in place. */
  lemma TallyHead(rows: seq<Row>, v: string, correct: bool)
    requires |rows| > 0 && rows[0].target == v
    requires Sequences.DistinctBy(rows, TargetOf)
    ensures Sequences.DistinctBy(Tally(rows, v, correct), TargetOf)
    ensures forall x :: x in Tally(rows, v, correct) ==> x.target == v || x in rows
  {
    var t := Tally(rows, v, correct);
    assert t[1..] == rows[1..];
    assert forall i :: 0 <= i < |t| ==> t[i].target == rows[i].target;
  }

  lemma {:induction false} TallySum(rows: seq<Row>, v: string, correct: bool)
    ensures SumTotals(Tally(rows, v, correct)) == SumTotals(rows) + 1
  {
    if |rows| > 0 {
      if rows[0].target == v {
        assert Tally(rows, v, correct)[1..] == rows[1..];
      } else {
        TallySum(rows[1..], v, correct);
        assert Tally(rows, v, correct)[1..] == Tally(rows[1..], v, correct);
      }
    }
  }

  /** Sum of the evaluation counts of all rows. */
  function SumTotals(rows: seq<Row>): nat {
    if |rows| == 0 then 0 else rows[0].total + SumTotals(rows[1..])
  }

  /** At most one aggregated row per target value, and the rows account for every matching entry. */
  lemma {:induction false} AggregateDistinct(entries: seq<EvaluationEntry>, kind: TargetKind)
    ensures Sequences.DistinctBy(Aggregate(entries, kind), TargetOf)
    ensures SumTotals(Aggregate(entries, kind)) == MatchingTotal(entries, kind)
  {
    if |entries| > 0 {
      var prefix := entries[..|entries| - 1];
      var e := entries[|entries| - 1];
      AggregateDistinct(prefix, kind);
      if Matches(e, kind) {
        TallyDistinct(Aggregate(prefix, kind), ValueOf(e, kind), IsCorrect(e));
        TallySum(Aggregate(prefix, kind), ValueOf(e, kind), IsCorrect(e));
      }
    }
  }

  /**
   * The aggregation is exact: the row for `v` exists exactly when some entry
   * for the kind is grouped under `v`, and carries the number of such entries
   * and of correct ones.
   */
  lemma {:induction false} AggregateCounts(entries: seq<EvaluationEntry>, kind: TargetKind, v: string)
    ensures Lookup(Aggregate(entries, kind), v) == ExpectedRow(entries, kind, v)
  {
    if |entries| > 0 {
      var prefix := entries[..|entries| - 1];
      var e := entries[|entries| - 1];
      AggregateCounts(prefix, kind, v);
      if Matches(e, kind) && ValueOf(e, kind) == v {
        CorrectAtMostMatching(prefix, kind, v);
        AggregateCountsHit(entries, kind, v);
      } else {
        AggregateCountsMiss(entries, kind, v);
      }
    }
  }

  /** An entry grouped under `v` adds one to the row of `v` (or creates it). */
  lemma AggregateCountsHit(entries: seq<EvaluationEntry>, kind: TargetKind, v: string)
    requires |entries| > 0
    requires var e := entries[|entries| - 1]; Matches(e, kind) && ValueOf(e, kind) == v
    requires var prefix := entries[..|entries| - 1];
             && Lookup(Aggregate(prefix, kind), v) == ExpectedRow(prefix, kind, v)
             && CountCorrect(prefix, kind, v) <= CountMatching(prefix, kind, v)
    ensures Lookup(Aggregate(entries, kind), v) == ExpectedRow(entries, kind, v)
  {
    var prefix := entries[..|entries| - 1];
    var e := entries[|entries| - 1];
    var rows := Aggregate(prefix, kind);
    assert Aggregate(entries, kind) == Tally(rows, v, IsCorrect(e));
    TallyLookupSame(rows, v, IsCorrect(e));
    var n := CountMatching(prefix, kind, v);
    var k := CountCorrect(prefix, kind, v);
    var c := if IsCorrect(e) then 1 else 0;
    assert CountMatching(entries, kind, v) == n + 1;
    assert CountCorrect(entries, kind, v) == k + c;
    assert Bumped(ExpectedRow(prefix, kind, v), v, IsCorrect(e)) == Row(v, n + 1, k + c);
  }

  /** Any other entry leaves the row of `v` as it was. */
  lemma AggregateCountsMiss(entries: seq<EvaluationEntry>, kind: TargetKind, v: string)
    requires |entries| > 0
    requires var e := entries[|entries| - 1]; !(Matches(e, kind) && ValueOf(e, kind) == v)
    requires var prefix := entries[..|entries| - 1];
             Lookup(Aggregate(prefix, kind), v) == ExpectedRow(prefix, kind, v)
    ensures Lookup(Aggregate(entries, kind), v) == ExpectedRow(entries, kind, v)
  {
    var prefix := entries[..|entries| - 1];
    var e := entries[|entries| - 1];
    if Matches(e, kind) {
      TallyLookup(Aggregate(prefix, kind), ValueOf(e, kind), IsCorrect(e), v);
    }
  }

  /** In a sequence with distinct targets, each row is the one found for its target. */
  lemma {:induction false} LookupFindsMember(rows: seq<Row>, r: Row)
    requires Sequences.DistinctBy(rows, TargetOf)
    requires r in rows
    ensures Lookup(rows, r.target) == Some(r)
  {
    if rows[0] != r {
      assert Sequences.DistinctBy(rows[1..], TargetOf) by {
        forall i, j | 0 <= i < j < |rows[1..]| ensures rows[1..][i].target != rows[1..][j].target {
          assert rows[1..][i] == rows[i + 1] && rows[1..][j] == rows[j + 1];
        }
      }
      var m :| 0 <= m < |rows| && rows[m] == r;
      assert rows[0].target != r.target;
      assert rows[1..][m - 1] == r;
      LookupFindsMember(rows[1..], r);
    }
  }

  // ---------------------------------------------------------------------------
  // Sorting the rows

  /** The columns whose text is an exact function of the counts. */
  datatype Column = EvaluationTargetColumn | EvaluationsColumn | CorrectColumn

  /** The text of a column, as put into the row map. */
  function ColumnValue(r: Row, col: Column): string {
    match col
    case EvaluationTargetColumn => r.target
    case EvaluationsColumn => Strings.NatToString(r.total)
    case CorrectColumn => Strings.NatToString(r.correct)
  }

  /** The sort key for a column. */
  function ColumnKey(col: Column): Row -> string {
    (r: Row) => ColumnValue(r, col)
  }

  /** The row comparator: ascending string order, or its reverse. */
  function Comparator(ascending: bool): (string, string) -> bool {
    if ascending then Strings.NotAfter else (a: string, b: string) => Strings.NotAfter(b, a)
  }

  lemma ComparatorIsTotalPreorder(ascending: bool)
    ensures Sequences.TotalPreorder(Comparator(ascending))
  {
    if ascending {
      Strings.AscendingIsTotalPreorder();
    } else {
      Strings.DescendingIsTotalPreorder();
    }
  }

  lemma {:induction false} SumInsert(x: Row, s: seq<Row>, key: Row -> string, le: (string, string) -> bool)
    ensures SumTotals(Sequences.Insert(x, s, key, le)) == x.total + SumTotals(s)
  {
    if |s| > 0 && !le(key(x), key(s[0])) {
      SumInsert(x, s[1..], key, le);
      assert Sequences.Insert(x, s, key, le)[1..] == Sequences.Insert(x, s[1..], key, le);
    } else {
      assert ([x] + s)[1..] == s;
    }
  }

  lemma {:induction false} SumSort(s: seq<Row>, key: Row -> string, le: (string, string) -> bool)
    ensures SumTotals(Sequences.SortBy(s, key, le)) == SumTotals(s)
  {
    if |s| > 0 {
      SumSort(s[1..], key, le);
      SumInsert(s[0], Sequences.SortBy(s[1..], key, le), key, le);
    }
  }

  /** Any reordering of the aggregated rows carries the exact counts in every row. */
  lemma PermutedRowsCounts(entries: seq<EvaluationEntry>, kind: TargetKind, rows: seq<Row>)
    requires multiset(rows) == multiset(Aggregate(entries, kind))
    ensures forall r :: r in rows ==>
              && r.total == CountMatching(entries, kind, r.target)
              && r.correct == CountCorrect(entries, kind, r.target)
              && 1 <= r.total && r.correct <= r.total
  {
    var grouped := Aggregate(entries, kind);
    AggregateDistinct(entries, kind);
    forall r | r in rows
      ensures && r.total == CountMatching(entries, kind, r.target)
              && r.correct == CountCorrect(entries, kind, r.target)
              && 1 <= r.total && r.correct <= r.total
    {
      assert r in multiset(grouped);
      LookupFindsMember(grouped, r);
      AggregateCounts(entries, kind, r.target);
      CorrectAtMostMatching(entries, kind, r.target);
    }
  }

  /** Any reordering of the aggregated rows has a row for exactly the values with entries. */
  lemma PermutedRowsLookup(entries: seq<EvaluationEntry>, kind: TargetKind, rows: seq<Row>)
    requires multiset(rows) == multiset(Aggregate(entries, kind))
    ensures forall v :: CountMatching(entries, kind, v) > 0 <==> Lookup(rows, v).Some?
  {
    var grouped := Aggregate(entries, kind);
    forall v ensures CountMatching(entries, kind, v) > 0 <==> Lookup(rows, v).Some? {
      AggregateCounts(entries, kind, v);
      if Lookup(rows, v).Some? {
        assert Lookup(rows, v).value in multiset(grouped);
      }
      if Lookup(grouped, v).Some? {
        assert Lookup(grouped, v).value in multiset(rows);
      }
    }
  }

  // ---------------------------------------------------------------------------
  // Rows in key-set order

  /**
   * The rows built by walking the keys of the totals map in `keys` order:
   * one row per key, with the total and correct count found for it.
   */
  function KeyRows(grouped: seq<Row>, keys: seq<string>): (rows: seq<Row>)
    requires forall v :: v in keys ==> Lookup(grouped, v).Some?
    ensures |rows| == |keys|
    ensures forall i :: 0 <= i < |keys| ==> rows[i] == Lookup(grouped, keys[i]).value
  {
    if |keys| == 0 then []
    else [Lookup(grouped, keys[0]).value] + KeyRows(grouped, keys[1..])
  }

  /** The target values of the rows, in row order. */
  function Targets(rows: seq<Row>): (keys: seq<string>)
    ensures |keys| == |rows|
    ensures forall i :: 0 <= i < |rows| ==> keys[i] == rows[i].target
  {
    seq(|rows|, i requires 0 <= i < |rows| => rows[i].target)
  }

  /**
   * Walking the keys of the counting pass in any duplicate-free order gives
   * rows with distinct targets that are found exactly where the counting
   * pass finds them.
   */
  lemma KeyRowsLookup(grouped: seq<Row>, keys: seq<string>)
    requires Sequences.Distinct(keys)
    requires forall v :: v in keys <==> Lookup(grouped, v).Some?
    ensures Sequences.DistinctBy(KeyRows(grouped, keys), TargetOf)
    ensures forall v :: Lookup(KeyRows(grouped, keys), v) == Lookup(grouped, v)
  {
    var rows := KeyRows(grouped, keys);
    assert forall i :: 0 <= i < |rows| ==> rows[i].target == keys[i];
    forall v ensures Lookup(rows, v) == Lookup(grouped, v) {
      if v in keys {
        var i :| 0 <= i < |keys| && keys[i] == v;
        LookupFindsMember(rows, rows[i]);
      }
    }
  }

  /** In a sequence with distinct targets no row occurs twice. */
  lemma {:induction false} DistinctByOnce(rows: seq<Row>, x: Row)
    requires Sequences.DistinctBy(rows, TargetOf)
    ensures multiset(rows)[x] <= 1
  {
    if |rows| > 0 {
      DistinctTail(rows);
      DistinctByOnce(rows[1..], x);
      assert rows == [rows[0]] + rows[1..];
      if rows[0] == x {
        assert x !in rows[1..];
      }
    }
  }

  /** Two sequences with distinct targets and the same lookups hold the same rows. */
  lemma SameLookupsSameRows(a: seq<Row>, b: seq<Row>)
    requires Sequences.DistinctBy(a, TargetOf) && Sequences.DistinctBy(b, TargetOf)
    requires forall v :: Lookup(a, v) == Lookup(b, v)
    ensures multiset(a) == multiset(b)
  {
    forall x ensures multiset(a)[x] == multiset(b)[x] {
      DistinctByOnce(a, x);
      DistinctByOnce(b, x);
      if x in a {
        LookupFindsMember(a, x);
        assert Lookup(b, x.target) == Some(x);
      }
      if x in b {
        LookupFindsMember(b, x);
        assert Lookup(a, x.target) == Some(x);
      }
    }
  }

  lemma {:induction false} SumAppend(a: seq<Row>, b: seq<Row>)
    ensures SumTotals(a + b) == SumTotals(a) + SumTotals(b)
  {
    if |a| > 0 {
      SumAppend(a[1..], b);
      assert (a + b)[1..] == a[1..] + b;
    } else {
      assert a + b == b;
    }
  }

  /** Reordering the rows does not change the sum of their totals. */
  lemma {:induction false} SumPermutation(a: seq<Row>, b: seq<Row>)
    requires multiset(a) == multiset(b)
    ensures SumTotals(a) == SumTotals(b)
    decreases |a|
  {
    if |a| == 0 {
      assert |b| == |multiset(b)| == 0;
    } else {
      var x := a[0];
      assert x in multiset(b);
      var k :| 0 <= k < |b| && b[k] == x;
      var rest := b[..k] + b[k + 1..];
      assert b == b[..k] + ([x] + b[k + 1..]);
      SumAppend(b[..k], [x] + b[k + 1..]);
      SumAppend(b[..k], b[k + 1..]);
      assert SumTotals([x] + b[k + 1..]) == x.total + SumTotals(b[k + 1..]);
      assert a == [x] + a[1..];
      assert multiset(rest) == multiset(b) - multiset{x};
      SumPermutation(a[1..], rest);
    }
  }

  /**
   * The standings for one kind of target. The rows are built in `keyOrder`,
   * the iteration order of the totals map (any duplicate-free listing of its
   * keys), then sorted by the text of `sortKey` (ascending when `sortOrder`,
   * descending otherwise); rows with equal text keep their key order.
   */
  function GroupEntriesByEvaluationTarget(entries: seq<EvaluationEntry>, kind: TargetKind, sortKey: Column,
                                          sortOrder: bool, keyOrder: seq<string>): (rows: seq<Row>)
    requires Sequences.Distinct(keyOrder)
    requires forall v :: v in keyOrder <==> Lookup(Aggregate(entries, kind), v).Some?
    ensures forall r :: r in rows ==>
              && r.total == CountMatching(entries, kind, r.target)
              && r.correct == CountCorrect(entries, kind, r.target)
              && 1 <= r.total && r.correct <= r.total
    ensures forall v :: CountMatching(entries, kind, v) > 0 <==> Lookup(rows, v).Some?
    ensures Sequences.DistinctBy(rows, TargetOf)
    ensures SumTotals(rows) == MatchingTotal(entries, kind)
    ensures Sequences.SortedBy(rows, ColumnKey(sortKey), Comparator(sortOrder))
    ensures forall text :: Sequences.WithKey(rows, ColumnKey(sortKey), text)
                        == Sequences.WithKey(KeyRows(Aggregate(entries, kind), keyOrder), ColumnKey(sortKey), text)
  {
    var key := ColumnKey(sortKey);
    var le := Comparator(sortOrder);
    var grouped := Aggregate(entries, kind);
    var unsorted := KeyRows(grouped, keyOrder);
    var rows := Sequences.SortBy(unsorted, key, le);
    AggregateDistinct(entries, kind);
    KeyRowsLookup(grouped, keyOrder);
    SameLookupsSameRows(unsorted, grouped);
    ComparatorIsTotalPreorder(sortOrder);
    Sequences.SortBySorted(unsorted, key, le);
    Sequences.SortByDistinctBy(unsorted, key, le, TargetOf);
    SumSort(unsorted, key, le);
    SumPermutation(unsorted, grouped);
    assert forall text :: Sequences.WithKey(rows, key, text) == Sequences.WithKey(unsorted, key, text) by {
      forall text ensures Sequences.WithKey(rows, key, text) == Sequences.WithKey(unsorted, key, text) {
        Sequences.SortByStable(unsorted, key, le, text);
      }
    }
    PermutedRowsCounts(entries, kind, rows);
    PermutedRowsLookup(entries, kind, rows);
    rows
  }

  /** The targets of the counting pass are a duplicate-free listing of its keys. */
  lemma TargetsAreKeys(entries: seq<EvaluationEntry>, kind: TargetKind)
    ensures Sequences.Distinct(Targets(Aggregate(entries, kind)))
    ensures forall v :: v in Targets(Aggregate(entries, kind)) <==> Lookup(Aggregate(entries, kind), v).Some?
  {
    var grouped := Aggregate(entries, kind);
    var keys := Targets(grouped);
    AggregateDistinct(entries, kind);
    forall v ensures v in keys <==> Lookup(grouped, v).Some? {
      if v in keys {
        var i :| 0 <= i < |keys| && keys[i] == v;
        LookupFindsMember(grouped, grouped[i]);
      }
      if Lookup(grouped, v).Some? {
        var i :| 0 <= i < |grouped| && grouped[i] == Lookup(grouped, v).value;
        assert keys[i] == v;
      }
    }
  }

  /**
   * The two-argument standings: sorted by target value, strictly ascending.
   * Targets are distinct, so the result does not depend on the key order;
   * the model walks the keys in the order of the counting pass.
   */
  function GroupByTarget(entries: seq<EvaluationEntry>, kind: TargetKind): (rows: seq<Row>)
    ensures forall r :: r in rows ==>
              r.total == CountMatching(entries, kind, r.target) && r.correct == CountCorrect(entries, kind, r.target)
    ensures forall v :: CountMatching(entries, kind, v) > 0 <==> Lookup(rows, v).Some?
    ensures forall i, j :: 0 <= i < j < |rows| ==>
              Strings.NotAfter(rows[i].target, rows[j].target) && rows[i].target != rows[j].target
  {
    TargetsAreKeys(entries, kind);
    GroupEntriesByEvaluationTarget(entries, kind, EvaluationTargetColumn, true, Targets(Aggregate(entries, kind)))
  }
}

=== FILE: strings.dfy ===
/**
 * The two pieces of java.lang.String behaviour the model relies on:
 * `compareTo` (lexicographic order by character, a proper prefix first) and
 * `Integer.toString` for non-negative counts.
 */
module Strings {
  import Sequences

  /** `a.compareTo(b) <= 0`: the first differing character decides, else the shorter string. */
  predicate NotAfter(a: string, b: string)
    decreases |a|
  {
    if |a| == 0 then true
    else if |b| == 0 then false
    else if a[0] != b[0] then a[0] < b[0]
    else NotAfter(a[1..], b[1..])
  }

  lemma {:induction false} NotAfterTotal(a: string, b: string)
    ensures NotAfter(a, b) || NotAfter(b, a)
    decreases |a|
  {
    if |a| > 0 && |b| > 0 && a[0] == b[0] {
      NotAfterTotal(a[1..], b[1..]);
    }
  }

  lemma {:induction false} NotAfterTransitive(a: string, b: string, c: string)
    requires NotAfter(a, b) && NotAfter(b, c)
    ensures NotAfter(a, c)
    decreases |a|
  {
    if |a| > 0 && |b| > 0 && |c| > 0 && a[0] == b[0] && b[0] == c[0] {
      NotAfterTransitive(a[1..], b[1..], c[1..]);
    }
  }

  lemma {:induction false} NotAfterAntisymmetric(a: string, b: string)
    requires NotAfter(a, b) && NotAfter(b, a)
    ensures a == b
    decreases |a|
  {
    if |a| > 0 && |b| > 0 {
      NotAfterAntisymmetric(a[1..], b[1..]);
      assert a == [a[0]] + a[1..] && b == [b[0]] + b[1..];
    }
  }

  /** Ascending string order is a total preorder, and antisymmetric, so a total order. */
  lemma AscendingIsTotalPreorder()
    ensures Sequences.TotalPreorder(NotAfter)
    ensures forall a, b :: NotAfter(a, b) && NotAfter(b, a) ==> a == b
  {
    forall a, b | NotAfter(a, b) && NotAfter(b, a) ensures a == b {
      NotAfterAntisymmetric(a, b);
    }
    forall a, b ensures NotAfter(a, b) || NotAfter(b, a) {
      NotAfterTotal(a, b);
    }
    forall a, b, c | NotAfter(a, b) && NotAfter(b, c) ensures NotAfter(a, c) {
      NotAfterTransitive(a, b, c);
    }
  }

  /** Descending string order (the comparator with its arguments swapped) is a total preorder. */
  lemma DescendingIsTotalPreorder()
    ensures Sequences.TotalPreorder((a: string, b: string) => NotAfter(b, a))
  {
    forall a: string, b: string ensures NotAfter(b, a) || NotAfter(a, b) {
      NotAfterTotal(a, b);
    }
    forall a: string, b: string, c: string | NotAfter(b, a) && NotAfter(c, b) ensures NotAfter(c, a) {
      NotAfterTransitive(c, b, a);
    }
  }

  /** The decimal digit for 0 <= d < 10. */
  function Digit(d: nat): char
    requires d < 10
  {
    "0123456789"[d]
  }

  /** The value of a decimal digit character. */
  function DigitValue(c: char): nat
    requires '0' <= c <= '9'
  {
    (c as int - '0' as int) as nat
  }

  /** `Integer.toString(n)` for a non-negative `n`. */
  function NatToString(n: nat): (s: string)
    ensures |s| >= 1
    ensures forall i :: 0 <= i < |s| ==> '0' <= s[i] <= '9'
  {
    if n < 10 then [Digit(n)] else NatToString(n / 10) + [Digit(n % 10)]
  }

  /** Reads a string of decimal digits back as a number. */
  function ParseNat(s: string): nat
    requires forall i :: 0 <= i < |s| ==> '0' <= s[i] <= '9'
  {
    if |s| == 0 then 0 else 10 * ParseNat(s[..|s| - 1]) + DigitValue(s[|s| - 1])
  }

  /** Printing and reading back a count is the identity. */
  lemma {:induction false} ParseNatToString(n: nat)
    ensures ParseNat(NatToString(n)) == n
  {
    var s := NatToString(n);
    if n >= 10 {
      ParseNatToString(n / 10);
      assert s[..|s| - 1] == NatToString(n / 10);
      assert DigitValue(s[|s| - 1]) == n % 10;
    } else {
      assert DigitValue(s[0]) == n;
    }
  }

  /** Distinct counts print as distinct strings. */
  lemma NatToStringInjective(m: nat, n: nat)
    requires NatToString(m) == NatToString(n)
    ensures m == n
  {
    ParseNatToString(m);
    ParseNatToString(n);
  }
}

=== FILE: wilson.dfy ===
/**
 * Completion of an evaluation target, as a function of the half-width of its
 * Wilson score interval. The half-width itself (a square-root formula over
 * doubles) is a parameter of the model.
 */
module Wilson {

  /** The half-width the evaluation aims for. */
  const TargetInterval: real := 0.05

  /** The progress score: 1.0 once the half-width is below the target, otherwise 1.0 less the excess. */
  function Progress(halfWidth: real): (p: real)
    ensures p <= 1.0
    ensures halfWidth < TargetInterval ==> p == 1.0
    ensures halfWidth >= TargetInterval ==> p + halfWidth == 1.0 + TargetInterval
  {
    if halfWidth < TargetInterval then 1.0 else 1.0 - (halfWidth - TargetInterval)
  }

  /** `Wilson.progress(total, correct)` for a given half-width function. */
  function ProgressOf(halfWidth: (int, int) -> real, total: int, correct: int): real {
    Progress(halfWidth(total, correct))
  }

  /** A wider interval never shows more progress. */
  lemma ProgressNonIncreasing(w1: real, w2: real)
    requires w1 <= w2
    ensures Progress(w2) <= Progress(w1)
  {
  }

  /** Progress stays below 1.0 exactly while the half-width exceeds the target. */
  lemma ProgressBelowOne(w: real)
    ensures Progress(w) < 1.0 <==> w > TargetInterval
  {
  }

  /**
   * The score formula is not clamped: half-widths above 1.05 would give
   * negative progress. Real Wilson half-widths stay below 0.5, so this is a
   * property of the formula, not an outcome of the program.
   */
  lemma ProgressCanBeNegative(w: real)
    requires w > 1.0 + TargetInterval
    ensures Progress(w) < 0.0
  {
  }
}

=== FILE: wrappers.dfy ===
/** The Option datatype that stands in for Java's nullable references. */
module Wrappers {

  datatype Option<+T> = None | Some(value: T) {

    /** Returns the value held in Some, or the default for None. */
    function GetOr(default: T): T {
      match this
      case Some(v) => v
      case None => default
    }
  }
}
